=== FILE: README.md ===
# Game of Castles — a Dafny model of its core

This project models the sequential core of the Game-of-Castles strategy game,
which is written in Java, and proves properties of it:

- the generic graph store `Graph<T>`, with `addNode`, `addEdge`, the edge and
  node lookups and `allNodesConnected`;
- the shortest-path skeleton `GraphAlgorithm<T>`, as the code is actually
  written: its own minimum rule, two `getSmallestNode` calls per round, costs
  that are never stored, and the bounded walk of `getPath`;
- map generation in `GameMap`. This covers:
  - the terrain bands;
  - castle placement (free field, high ground, spacing);
  - the four road passes of `generateEdges`, including the merge pass that
    measures from castle `m` of the map but links member `m` of the component;
  - the kingdom-count guard;
  - `generateRandomMap`'s argument checks and final connectivity check;
- the K-means clustering of castles into kingdoms (`Clustering`);
- the high-score line format (`ScoreEntry.read`/`write`/`compareTo`);
- the three win conditions (`PointGoal`, `GeneralGoal`, `MonopolGoal`) and
  the `Joker` record.

Nodes are indices `0..n-1` into a sequence of payloads, and edges are index
pairs. Every random draw is an oracle argument, reduced to the range the code
draws from. Each operation is a pure function, or a method with loop
invariants where the source loops. An exception in the source is an `Err` of
a `Fault` (`IllegalArgument`, `IndexOutOfBounds`, `NullPointer` or
`NumberFormat`). A K-means loop that exhausts its fuel is `Diverged`.

Files: `util.dfy` (Option/Result, sequence helpers), `geometry.dfy`
(points, squared distance, the `(int)` cast), `graph.dfy`,
`connectivity.dfy`, `shortest_path.dfy`, `castles.dfy`, `edges.dfy` (module
`Topology`), `clustering.dfy`, `map_gen.dfy` (module `GameMaps`), `score.dfy`
(module `Scores`), `goals.dfy`, `joker.dfy` (module `Jokers`).

The operations follow the code, also where it departs from its own
documentation. Three such departures are listed under Findings. Each of them
has a corrected member next to the as-written one, and the entry points use the
as-written one. Two smaller departures:

- An empty cluster does not keep its centre. Its centre becomes (0, 0),
  because the 0/0 mean is NaN and the `(int)` cast turns it into 0
  (src/game/map/Clustering.java:94-96).
- `allNodesConnected` answers false for a single node without a self-loop.

## Model

| member | source | states |
|---|---|---|
| Graphs.EmptyGraph | src/base/Graph.java:27-30 | a new graph has no nodes and no edges |
| Graphs.AddNode | src/base/Graph.java:37-41 | the node is appended at index \|nodes\| with the given value; earlier nodes and all edges are unchanged |
| Graphs.AddEdge | src/base/Graph.java:49-58 | if some edge already joins the two nodes, in either order, the graph is unchanged and an edge joining them is returned; otherwise exactly the edge (a, b) is appended |
| Graphs.AddEdgeIdempotent | src/base/Graph.java:49-58 | calling addEdge again, with the endpoints in either order, returns the same edge and the same graph |
| Graphs.AddEdgeKeepsNoDup | src/base/Graph.java:49-58 | an edge list without two edges on the same unordered pair keeps that property under addEdge |
| Graphs.AddEdgeExtends | src/base/Graph.java:49-58 | addEdge only ever appends, and afterwards the two nodes are joined |
| Graphs.AllValues | src/base/Graph.java:82-85 | one value per node, in node order |
| Graphs.AllValuesAddNode | src/base/Graph.java:37-41 | addNode appends its value at the end of the values list |
| Graphs.AllValuesFound | src/base/Graph.java:122-125 | every listed value is found by getNode, at a node no later than its own position |
| Graphs.ReachableSym | src/base/Graph.java:94-97 | edges have no direction: t is reachable from s exactly when s is from t |
| Graphs.ReachableMono | src/base/Graph.java:49-58 | adding edges never disconnects two connected nodes |
| Graphs.Incident | src/base/Graph.java:94-97 | getEdges(node) holds exactly the stored edges with node as an endpoint |
| Graphs.IncidentAppend | src/base/Graph.java:94-97 | the selection keeps edge-list order: the edges of a concatenation are those of each part, in turn |
| Graphs.GetEdge | src/base/Graph.java:106-114 | None exactly when no edge has both nodes as endpoints; otherwise the first such edge in the list |
| Graphs.GetNode | src/base/Graph.java:122-125 | the first node holding the value; None exactly when no node holds it |
| Connectivity.Explore | src/base/Graph.java:133-157 | the frontier expansion from a node collects, without repeats, exactly the nodes reachable from it, provided it has an edge at all |
| Connectivity.AllNodesConnected | src/base/Graph.java:131-163 | an empty graph fails with an index error; otherwise the answer is true exactly when node 0 has an edge and every node is reachable from node 0 |
| Connectivity.CycleIsConnected | src/tests/student/GraphConnectionTest.java:10-25 | the cycle 1-2-3-4-1 is connected |
| Connectivity.PathWithIsolatedNodeIsNot | src/tests/student/GraphConnectionTest.java:27-40 | the path 1-2-3 with 4 left alone is not connected |
| Connectivity.LoneNodeIsNot | src/base/Graph.java:133-161 | a one-node graph without edges is reported as not connected |
| ShortestPath.Init | src/base/GraphAlgorithm.java:45-54 | a source outside the graph fails with a null dereference; otherwise every node is available, in node order, has no predecessor and cost -1, and the source has cost 0 |
| ShortestPath.InitHasInitialCosts | src/base/GraphAlgorithm.java:45-54 | after construction, costs are -1 or 0 with a single 0, the available list has no repeats, and no predecessor link exists yet |
| ShortestPath.ScanCosts | src/base/GraphAlgorithm.java:65-73 | the first scan returns the minimum cost, and `diff` is set exactly when some cost exceeds the minimum of the costs before it |
| ShortestPath.FindMin | src/base/GraphAlgorithm.java:74-84 | the second scan stops at the first position holding the minimum |
| ShortestPath.GetSmallestNode | src/base/GraphAlgorithm.java:62-90 | None exactly when nothing is available; otherwise exactly one node is removed and returned. It is the first node holding the minimum cost when the costs rise somewhere, and the first node otherwise |
| ShortestPath.HeadIsTaken | src/base/GraphAlgorithm.java:62-90 | with the constructor's costs, the minimum rule always picks the head of the list |
| ShortestPath.TakeHead | src/base/GraphAlgorithm.java:62-90 | with the constructor's costs, getSmallestNode removes and returns the head of the available list |
| ShortestPath.RelaxEdges | src/base/GraphAlgorithm.java:113-122 | the edge loop sets w's predecessor to v exactly when some visited edge at v is passable, leads to w, and w's cost is -1 or above cost(v) + edge cost |
| ShortestPath.Relax | src/base/GraphAlgorithm.java:113-122 | one processed node changes predecessors exactly where some passable edge at it improves a neighbour; stored costs and the available list stay as they are |
| ShortestPath.Run | src/base/GraphAlgorithm.java:107-124 | fails with a null dereference exactly when the node count is odd. Otherwise costs are unchanged, nothing stays available, and each node's predecessor is the last node at an odd position of the list that improves it, or stays as it was when none does |
| ShortestPath.RunRound | src/base/GraphAlgorithm.java:111-122 | one loop test and body: it ends on an empty list, dereferences null on a one-element list, and otherwise removes two nodes and relaxes the second |
| ShortestPath.Chain | src/base/GraphAlgorithm.java:138-146 | the walk back from d collects the edges between consecutive ancestors, is empty exactly when d has no predecessor, and holds at most \|E\| + 1 edges; when shorter than that, the chain has ended |
| ShortestPath.GetPath | src/base/GraphAlgorithm.java:133-154 | a destination outside the graph fails with a null dereference; otherwise None exactly when d has no predecessor; otherwise 1 to \|E\| + 1 edges, where the j-th edge from the end joins d's j-th and (j+1)-th ancestors |
| ShortestPath.ReversedLinks | src/base/GraphAlgorithm.java:147 | reversing the collected list puts the edge at d last |
| Castles.Fields | src/game/map/GameMap.java:102-107 | the candidate fields are exactly the points (x, y) with x < tilesX - 1 and y < tilesY - 1, (tilesX - 1)(tilesY - 1) of them |
| Castles.FindSite | src/game/map/GameMap.java:117-147 | the scan inside a field returns the first spot, in scan order, whose probe is high ground (at least 0.6) and clear of every castle by max(tileW, tileH). It returns None when every spot is refused, and an index error when a probe leaves the noise grid before any acceptable spot has been met |
| Castles.GenerateCastles | src/game/map/GameMap.java:88-149 | fails with IllegalArgument exactly when tilesX * tilesY < count. Otherwise it draws distinct candidate fields. An index error only comes from a drawn field whose scan probes outside the noise grid. On success, either `count` castles stand or every field has been drawn, and the castles are all on high ground and pairwise at least max(tileW, tileH) apart |
| Castles.SpacedExtend | src/game/map/GameMap.java:128-137 | adding a castle clear of all placed ones keeps the placed castles pairwise spaced |
| Topology.MaxDistance | src/game/map/GameMap.java:159-165 | the link radius is 150, 200 or 300 for widths 15, 27 and 48, and 0 otherwise |
| Topology.Nearest | src/game/map/GameMap.java:176-195 | the nearest castle outside the excluded set, the lowest index winning ties, or the default when there is none |
| Topology.LinkNear | src/game/map/GameMap.java:167-175 | every new road joins i < j closer than the radius while i had fewer than 3 roads; and every such close pair ends joined, or i has at least 3 roads |
| Topology.LinkIsolated | src/game/map/GameMap.java:176-197 | every new road joins a castle without roads to its nearest other castle; afterwards every castle has a road |
| Topology.PairFits | src/game/map/GameMap.java:199-225 | for a castle and its partner that each have one road, the nearest castle outside the pair is a new road exactly when it is neither of them, which is always so with three or more castles |
| Topology.LinkPairs | src/game/map/GameMap.java:199-225 | every new road links half of an isolated pair to its nearest castle outside the pair; afterwards, with three or more castles, no castle that had a road is half of an isolated pair |
| Topology.MergeOnce | src/game/map/GameMap.java:260-280 | the merge searches from castle m of the map but links member m of the component: the new road goes to the castle outside the component nearest to castle m (lowest index on ties), and it is the only road added |
| Topology.MergeComponents | src/game/map/GameMap.java:227-283 | every new road joins two castles that were not yet connected; when every castle has a road, the draw never fails; afterwards every castle reaches every other |
| Topology.MergeInvStart | src/game/map/GameMap.java:227-283 | before the pass, every castle reaching any castle at all has a castle not yet seen within reach |
| Topology.MergeKeeps | src/game/map/GameMap.java:260-280 | a road from a component to a castle outside it keeps that invariant, with the component now counted as seen |
| Topology.MergeDone | src/game/map/GameMap.java:227-283 | once every castle has been seen, the invariant leaves each castle reaching all others |
| Topology.SpansConnected | src/base/Graph.java:131-163 | a map where castle 0 has a road and reaches every castle passes allNodesConnected |
| Topology.GenerateEdges | src/game/map/GameMap.java:155-284 | the four passes only add roads; afterwards every castle has a road, every castle reaches every other (so a non-empty map passes allNodesConnected), and with three or more castles none is half of an isolated pair |
| Clustering.InitialCentres | src/game/map/Clustering.java:49-62 | centre i is the pair of draws i, each scaled by 50 and truncated |
| Clustering.InitialCentresInSquare | src/game/map/Clustering.java:51-62 | draws in [0, 1) give centre coordinates in [0, 50) |
| Clustering.NearestCentre | src/game/map/Clustering.java:66-77 | the chosen centre is at minimal squared distance, and every lower index is strictly farther |
| Clustering.Assign | src/game/map/Clustering.java:65-79 | each castle is assigned its nearest centre |
| Clustering.Members | src/game/map/Clustering.java:81-87 | a kingdom's members are exactly the castles assigned to it, in castle order |
| Clustering.MeanBounds | src/game/map/Clustering.java:88-96 | the truncated mean of values between lo and hi lies between lo and hi |
| Clustering.CentroidInBox | src/game/map/Clustering.java:80-97 | a non-empty kingdom's new centre lies in every box holding all its castles |
| Clustering.Centroid | src/game/map/Clustering.java:88-96 | an empty kingdom's new centre is (0, 0) |
| Clustering.NewCentres | src/game/map/Clustering.java:80-97 | new centre i is the centroid of the castles assigned to centre i |
| Clustering.Kingdoms | src/game/map/Clustering.java:110-119 | kingdom i has index i, keeps centre i and holds the castles assigned to centre i |
| Clustering.KingdomsAssigned | src/game/map/Clustering.java:110-119 | the finished kingdoms have indices 0..k-1, carry the centres before the update, and kingdom i holds exactly the castles nearest to centre i |
| Clustering.AssignedPartition | src/game/map/Clustering.java:110-119 | the finished kingdoms partition the castles: each castle lies in exactly one kingdom |
| Clustering.ClusterAsWritten | src/game/map/Clustering.java:64-126 | the loop as written: on stopping, castles are assigned to the final centres and only kingdom 0's centre is guaranteed to be its centroid |
| Clustering.OnlyFirstCentreDecidesStop | src/game/map/Clustering.java:98-109 | castles at (10,10) and (40,40) with centres (10,10) and (41,41): the loop stops at once with centre (41,41), although that kingdom's centroid is (40,40) |
| Clustering.Cluster | src/game/map/Clustering.java:64-126 | the loop stopping only when no centre moves: on stopping, every kingdom's centre is the centroid of its castles |
| Clustering.StableStopsAsWritten | src/game/map/Clustering.java:98-109 | at a fixed point of the update, both stopping rules give the same kingdoms |
| Clustering.GetPointsClusters | src/game/map/Clustering.java:27-129 | fails with IllegalArgument exactly when k < 2; otherwise runs the loop as written and returns k kingdoms holding the castles nearest to their centres, with only kingdom 0 certain to sit on its centroid |
| Clustering.EntryPointStopsEarly | src/game/map/Clustering.java:49-109 | through the entry point, draws 0.2 and 0.82 give centres (10,10) and (41,41), and the kingdoms returned are not all at their centroids |
| GameMaps.TerrainOf | src/game/map/GameMap.java:49-60 | the bands water ≤ 0.40 < sand ≤ 0.5 < grass ≤ 0.7 < stone ≤ 0.8 < snow, each band in both directions |
| GameMaps.TerrainMonotone | src/game/map/GameMap.java:49-60 | a higher noise value never gives a lower band |
| GameMaps.HighGroundIsDry | src/game/map/GameMap.java:122 | a castle's probe value (at least 0.6) lies in the grass band or above |
| GameMaps.GenerateKingdoms | src/game/map/GameMap.java:291-298 | no kingdoms unless 0 < k < castle count; IllegalArgument exactly when k = 1 with at least two castles (the clustering guard), so for 2 ≤ k only running out of rounds can fail; otherwise exactly k kingdoms from the clustering loop as written (castles at their nearest centre, kingdom 0 on its centroid) |
| GameMaps.NodesOf | src/game/map/GameMap.java:137 | the castle graph before roads holds the castles in placement order, with no edges |
| GameMaps.CastlesAndRoads | src/game/map/GameMap.java:314-332 | castle placement then the road passes: IllegalArgument exactly when tilesX * tilesY < count, no fault but that and an index error; on success spaced castles, each on a road, all connected |
| GameMaps.AssembleMap | src/game/map/GameMap.java:314-332 | width raised to 15 and height to 10; IllegalArgument for a non-positive scale or castle count or too few tiles, and otherwise only for k = 1; the only other faults are an index error and running out of rounds; the assembled map has spaced castles, a road at every castle, a connected road network, and, when 0 < k < castle count, exactly k kingdoms from the clustering loop as written, none otherwise |
| GameMaps.GenerateRandomMap | src/game/map/GameMap.java:314-335 | the same checks and the same limits on which faults occur, then a map only when the road network is connected (None otherwise); since the roads always connect the map, a run without an exception never returns None; a returned map has at least one castle |
| Scores.ParseSigned | src/game/ScoreEntry.java:84-89 | Long.parseLong and Integer.parseInt: an optional sign, then digits only, and a value in range; anything else fails with NumberFormat |
| Scores.ParseDecimal | src/game/ScoreEntry.java:57-59 | the decimal text of any in-range number parses back to that number |
| Scores.Split | src/game/ScoreEntry.java:82 | String.split(";"): the whole string when it has no ';', otherwise the pieces with trailing empty pieces dropped |
| Scores.SplitOfFour | src/game/ScoreEntry.java:61 | four fields without ';' and a non-empty last one, joined by ';', split back into the same four |
| Scores.ReadFields | src/game/ScoreEntry.java:82-90 | the part of read that can throw: an index error below two fields, then NumberFormat for a bad timestamp, then an index error below three and four fields, then NumberFormat for a bad score, in source order |
| Scores.Write | src/game/ScoreEntry.java:55-62 | the written line splits back into the name, the timestamp digits, the score digits and the game type, when neither text holds ';' and the game type is not empty (WriteThenRead closes the round trip) |
| Scores.Check | src/game/ScoreEntry.java:91-108 | null for more than four fields; an accepted entry carries the four fields, passes every check, and has a game type from the list given |
| Scores.Read | src/game/ScoreEntry.java:80-112 | read fails with an index or number error, gives null for more than four fields, and otherwise returns only entries whose name, timestamp, score and game type pass the checks |
| Scores.LastDigitOfScore | src/game/ScoreEntry.java:100-103 | a non-negative parsed score whose text ends in 0 or 5 is a multiple of 5 |
| Scores.DecimalPlain | src/game/ScoreEntry.java:97-106 | a rendered number contains no ';' and no letter, so the letter checks never refuse it |
| Scores.WriteThenRead | src/game/ScoreEntry.java:55-112 | with any list of non-empty, ';'-free game types, a written entry that meets every check reads back as the same entry |
| Scores.PassesUpToType | src/game/ScoreEntry.java:91-108 | a written entry whose name, timestamp and score pass is accepted exactly when its game type is in the list |
| Scores.GeneralScoreDropped | src/game/ScoreEntry.java:107-108 | as written, an entry whose game type is the general goal's name reads back as null, however valid its other fields |
| Scores.WriteThenReadGoals | src/game/ScoreEntry.java:55-112 | checking against the goals' own names, every valid entry of any goal reads back as itself |
| Scores.Compare | src/game/ScoreEntry.java:44-46 | Integer.compare on the scores: negative, zero or positive as the first score is below, equal to or above the second |
| Scores.CompareAntisymmetric | src/game/ScoreEntry.java:44-46 | the comparison is antisymmetric and looks at the scores alone |
| Goals.PointWinner | src/game/goals/PointGoal.java:20-33 | no winner before round 2; afterwards the first player with at least 500 points, or none when no player has that many |
| Goals.GeneralWinner | src/game/goals/GeneralGoal.java:20-32 | no winner before round 2; afterwards the first player with at least 75 troops left, or none |
| Goals.MonopolWinnerAsWritten | src/game/goals/MonopolGoal.java:20-36 | no winner before round 2 or without kingdoms; otherwise the owner of the first kingdom |
| Goals.MonopolAsWrittenIgnoresTroops | src/game/goals/MonopolGoal.java:27-33 | as written, an owner with one troop in its only castle wins, although the corrected rule finds no winner |
| Goals.MonopolWinner | src/game/goals/MonopolGoal.java:12 | no winner before round 2; afterwards the owner of the first owned kingdom whose every castle holds at least two troops, or none when no kingdom is such |
| Goals.MonopolAgreesWhenFirstHeld | src/game/goals/MonopolGoal.java:27-33 | the two rules agree whenever the first kingdom is owned and fully held |
| Goals.Winner | src/game/goals/PointGoal.java:20-33 | each goal's getWinner as written, none before round 2; for Monopol, the owner of the first kingdom |
| Goals.MonopolCompletedByOwnership | src/game/goals/MonopolGoal.java:16-43 | from round 2, an owned first kingdom completes the Monopol goal, and every player but its owner has lost |
| Goals.IsCompleted | src/game/goals/PointGoal.java:15-18 | completed exactly when a winner exists |
| Goals.HasLost | src/game/goals/PointGoal.java:35-41 | false before round 2; afterwards, lost exactly when a winner exists and is someone else, the Monopol winner being taken as written |
| Goals.LosersAreAllButWinner | src/game/goals/GeneralGoal.java:34-40 | before completion nobody has lost; after it, exactly the players other than the winner have |
| Goals.LaterPlayersDoNotMatter | src/game/goals/PointGoal.java:26-32 | changing the points of a player after the winner does not change the winner |
| Jokers.NewJoker | src/joker/Joker.java:7-14 | a new joker has all three flags cleared and the given owner |
| Jokers.SetUsed | src/joker/Joker.java:24-26 | setUsed sets `used` and leaves the other flags and the owner alone |
| Jokers.SetReroll | src/joker/Joker.java:28-30 | setReroll sets `reroll` and leaves the other flags and the owner alone |
| Jokers.SetUseNow | src/joker/Joker.java:36-38 | setUseNow sets `useNow` and leaves the other flags and the owner alone |
| Jokers.SettersOverwrite | src/joker/Joker.java:16-38 | setting a flag to its value changes nothing, and the last write to a flag wins |
| Jokers.SettersCommute | src/joker/Joker.java:16-38 | setters of different flags commute |

## Left out

- Rendering is not modelled: the background image, the Perlin noise and the colours themselves. The noise field is an input grid of reals, and `TerrainOf` returns the band rather than a colour.
- The floating-point tile sizing (src/game/map/GameMap.java:89-95) is left out. The tile counts and sizes are inputs (`Tiles`).
- Every random source is an oracle argument: `Math.random`, `ThreadLocalRandom` and `java.util.Random`. The k-th draw is reduced into the range the code draws from.
- Castle names (src/game/map/GameMap.java:110, 123-124, 342-353) are left out: they load resources and affect no rule.
- Console output, the image and size getters, the `PrintWriter` and `Date` objects, and `System.currentTimeMillis` are left out. `write` returns the line, and the current time enters `read` only through its digit count.
- Java doubles are exact reals here. This covers path costs, the 0.6 and band thresholds, and the draws scaled by 50. Castle distances are compared as squared integers, which preserves every `<` on square roots.
- `Character.isLetter` is modelled for ASCII letters only. Digits for the parsers are ASCII `0`-`9` only (Java also accepts other Unicode digits).
- The `Heerf¸hrer` game-type literal of src/game/ScoreEntry.java:107 is kept verbatim (see Findings). `Read` and `Check` take the list of game types as a parameter; the code's list is `GameTypes`.
- Clustering.Centroid: the coordinate sums are unbounded integers, so `int` overflow of `helperX`/`helperY` is not modelled. With map-sized coordinates it cannot occur.
- Clustering.Cluster: `equalCenters` is a field that is never reset, so a second call on the same object returns kingdoms without any castles. A call is modelled once, from fresh state.
- Clustering.ClusterAsWritten, Clustering.Cluster and GameMaps.GenerateKingdoms run for at most `fuel` rounds. Running out is the `Diverged` fault, which the source has no counterpart for.
- ShortestPath.GetPath requires every predecessor link to follow an edge (`Backed`). `Run` establishes this from the constructor's state. Without it, the source would put `null` entries into the path.
- ShortestPath.Run requires the constructor's cost pattern (at most one 0, all others -1), which is what the constructor leaves and what `run` keeps.
- `GraphAlgorithm`'s `getValue` and `isPassable` are abstract in the source. Here they are function parameters.
- Edges are compared by their endpoint indices, where the source compares `Edge` references. Since `addEdge` keeps at most one edge per unordered pair, the two agree for edges.
- Graphs.GetNode compares payloads by value (`==` on `T`), where src/base/Graph.java:124 compares the payload references. The two differ when equal payloads are distinct objects: in a `Graph<Integer>`, `addNode(1000)` then `getNode(1000)` boxes 1000 twice, so the source returns null, while the model finds node 0. Object identity is not modelled.
- `AttackThread` and the rest of the user interface are left out. So are the classes `Game`, `Player`, `Castle` and `Kingdom` beyond the fields the rules read.
- Goals.MonopolWinner is the Monopol goal as its description states it. `Winner`, `IsCompleted` and `HasLost` use the as-written rule `Goals.MonopolWinnerAsWritten` (see Findings).
- Goals.HasLost compares player positions where the source compares `Player` references.

## Findings

| source | as written | input that shows it | evidently intended | confidence | as-written member | corrected member |
|---|---|---|---|---|---|---|
| src/game/map/Clustering.java:98-109 | the loop sets `finish` on the first equal centre and leaves at the first different one, so it stops whenever centre 0 did not move | castles (10,10) and (40,40), initial centres (10,10) and (41,41): the loop stops at once with kingdom 1 centred on (41,41), while its castle's centroid is (40,40) | stop only when no centre moved | not executed | Clustering.ClusterAsWritten, Clustering.OnlyFirstCentreDecidesStop, Clustering.EntryPointStopsEarly | Clustering.Cluster |
| src/game/goals/MonopolGoal.java:27-33 | the `break` leaves only the castle loop, and the `return p` after it ends the kingdom loop on its first pass, so the first kingdom's owner wins whatever the troop counts | round 2, one kingdom owned by player 0 whose only castle holds 1 troop: player 0 wins | the owner of a kingdom whose every castle holds at least two troops wins (the goal's description, line 12) | not executed | Goals.MonopolWinnerAsWritten, Goals.MonopolAsWrittenIgnoresTroops | Goals.MonopolWinner |
| src/game/ScoreEntry.java:107-108 | the accepted game types include `Heerf¸hrer`, with a cedilla (U+00B8), but the general goal is named `Heerführer` (src/game/goals/GeneralGoal.java:12), with a u-umlaut (U+00FC) | an entry with game type `Heerführer` and a valid name, timestamp and score: `read` of its written line returns null | accept the names the goals actually carry, so that a general-goal score reads back | not executed | Scores.GameTypes, Scores.GeneralScoreDropped | Scores.GoalNames, Scores.WriteThenReadGoals |

=== FILE: castles.dfy ===
/** Castle placement, `GameMap.generateCastles` (src/game/map/GameMap.java:88-149).

    The map is cut into tiles; every tile but those of the last column and row
    is a candidate field. Fields are drawn at random without replacement; in a
    drawn field the code scans the tile's upper-right quarter downwards for a
    spot whose probe point (half a tile further right and down) lies on high
    ground (noise at least 0.6) and that keeps a tile's length away from every
    castle placed so far. Tile sizes, the noise grid and the random draws are
    inputs here: `pick(k)` is the k-th value drawn, reduced modulo the number of
    fields still left. */
module Castles {
  import opened Util
  import opened Geometry

  /** A castle as far as the map is concerned: where it stands. */
  datatype Castle = Castle(location: Point)

  /** The tile grid: counts in each direction and the pixel size of one tile. */
  datatype Tiles = Tiles(countX: nat, countY: nat, width: nat, height: nat)

  const HighGround: real := 0.6

  /** Castles closer than this (the larger tile side) would overlap. */
  function Spacing(t: Tiles): nat {
    if t.width >= t.height then t.width else t.height
  }

  /** No two castles stand closer than m to each other. */
  predicate Spaced(cs: seq<Castle>, m: nat) {
    forall i, j :: 0 <= i < j < |cs| ==> !Closer(cs[i].location, cs[j].location, m)
  }

  /** The candidate fields, column by column (src/game/map/GameMap.java:102-107). */
  function Fields(countX: nat, countY: nat): (r: seq<Point>)
    ensures |r| == if countX == 0 || countY == 0 then 0 else (countX - 1) * (countY - 1)
    ensures forall p :: p in r <==> 0 <= p.x < countX - 1 && 0 <= p.y < countY - 1
  {
    if countX <= 1 || countY <= 1 then []
    else
      var r := Columns(countX - 1, countY - 1);
      r
  }

  function Columns(xs: nat, ys: nat): (r: seq<Point>)
    ensures |r| == xs * ys
    ensures forall p :: p in r <==> 0 <= p.x < xs && 0 <= p.y < ys
  {
    if xs == 0 then []
    else
      var col := seq(ys, y => Point(xs - 1, y));
      assert forall p :: p in col <==> p.x == xs - 1 && 0 <= p.y < ys by {
        forall p: Point | p.x == xs - 1 && 0 <= p.y < ys ensures p in col {
          assert col[p.y] == p;
        }
      }
      Columns(xs - 1, ys) + col
  }

  /** The corner of field f: `(int) ((f + 0.5) * tileSize)` in each direction. */
  function Corner(t: Tiles, f: Point): Point
    requires f.x >= 0 && f.y >= 0
  {
    Point(((2 * f.x + 1) * t.width) / 2, ((2 * f.y + 1) * t.height) / 2)
  }

  function Offset(corner: Point, dx: int, dy: int): Point {
    Point(corner.x + dx, corner.y + dy)
  }

  /** The noise sample a castle at c is checked against. */
  function ProbePoint(t: Tiles, c: Point): Point {
    Point(c.x + t.width / 2, c.y + t.height / 2)
  }

  predicate InNoise(noise: seq<seq<real>>, p: Point) {
    0 <= p.x < |noise| && 0 <= p.y < |noise[p.x]|
  }

  /** A castle at c stands on high ground. */
  predicate OnHighGround(noise: seq<seq<real>>, t: Tiles, c: Point) {
    var p := ProbePoint(t, c);
    InNoise(noise, p) && noise[p.x][p.y] >= HighGround
  }

  predicate Clear(cs: seq<Castle>, c: Point, m: nat) {
    forall r :: r in cs ==> !Closer(r.location, c, m)
  }

  /** Offset (dx, dy) from the corner was looked at and refused: its probe lies
      inside the noise grid, and it is low ground or too near a castle. */
  predicate Refused(noise: seq<seq<real>>, t: Tiles, cs: seq<Castle>, corner: Point, dx: int, dy: int) {
    var c := Offset(corner, dx, dy);
    InNoise(noise, ProbePoint(t, c)) && !(OnHighGround(noise, t, c) && Clear(cs, c, Spacing(t)))
  }

  /** The scan inside one field (src/game/map/GameMap.java:117-147): offsets are
      tried from (width/2, height/2) downwards, the vertical offset in the inner
      loop. The result is the first acceptable spot, None when every spot is
      refused, or an index failure at the first probe outside the noise grid. */
  method FindSite(noise: seq<seq<real>>, t: Tiles, cs: seq<Castle>, corner: Point)
    returns (r: Result<Option<Point>>)
    ensures r.Err? ==> r.fault == IndexOutOfBounds
    ensures r.Err? ==> exists dx, dy :: 0 <= dx <= t.width / 2 && 0 <= dy <= t.height / 2
                          && !InNoise(noise, ProbePoint(t, Offset(corner, dx, dy)))
                          && (forall ex, ey ::
                                (0 <= ex <= t.width / 2 && 0 <= ey <= t.height / 2
                                 && (ex > dx || (ex == dx && ey > dy))) ==> Refused(noise, t, cs, corner, ex, ey))
    ensures r.Ok? && r.value.None? ==>
              forall dx, dy :: 0 <= dx <= t.width / 2 && 0 <= dy <= t.height / 2 ==>
                Refused(noise, t, cs, corner, dx, dy)
    ensures r.Ok? && r.value.Some? ==>
              exists dx, dy :: && 0 <= dx <= t.width / 2 && 0 <= dy <= t.height / 2
                               && r.value.value == Offset(corner, dx, dy)
                               && (forall ex, ey ::
                                     (0 <= ex <= t.width / 2 && 0 <= ey <= t.height / 2
                                      && (ex > dx || (ex == dx && ey > dy))) ==>
                                     Refused(noise, t, cs, corner, ex, ey))
    ensures r.Ok? && r.value.Some? ==>
              OnHighGround(noise, t, r.value.value) && Clear(cs, r.value.value, Spacing(t))
  {
    var hw := t.width / 2;
    var hh := t.height / 2;
    var x := hw;
    while x >= 0
      invariant -1 <= x <= hw
      invariant forall ex, ey :: x < ex <= hw && 0 <= ey <= hh ==> Refused(noise, t, cs, corner, ex, ey)
    {
      var y := hh;
      while y >= 0
        invariant -1 <= y <= hh
        invariant forall ex, ey :: x < ex <= hw && 0 <= ey <= hh ==> Refused(noise, t, cs, corner, ex, ey)
        invariant forall ey :: y < ey <= hh ==> Refused(noise, t, cs, corner, x, ey)
      {
        var c := Offset(corner, x, y);
        var p := ProbePoint(t, c);
        if !InNoise(noise, p) {
          return Err(IndexOutOfBounds);
        }
        if noise[p.x][p.y] >= HighGround && Clear(cs, c, Spacing(t)) {
          return Ok(Some(c));
        }
        y := y - 1;
      }
      x := x - 1;
    }
    return Ok(None);
  }

  /** Index of the field drawn k-th from `left` fields. */
  function Draw(pick: nat -> nat, k: nat, left: nat): (i: nat)
    requires left > 0
    ensures i < left
  {
    pick(k) % left
  }

  /** `generateCastles`: refuses a castle count above the number of tiles;
      otherwise draws fields until they run out or enough castles stand. Every
      castle stands on high ground, no two stand closer than the larger tile
      side, and there is at most one per candidate field. `drawn` lists the
      fields drawn, in draw order; an index error comes from a probe of one of
      them that leaves the noise grid. */
  method GenerateCastles(noise: seq<seq<real>>, t: Tiles, count: nat, pick: nat -> nat)
    returns (r: Result<seq<Castle>>, ghost drawn: seq<Point>)
    ensures r == Err(IllegalArgument) <==> t.countX * t.countY < count
    ensures r.Err? ==> r.fault in {IllegalArgument, IndexOutOfBounds}
    ensures multiset(drawn) <= multiset(Fields(t.countX, t.countY))
    ensures r.Ok? ==> |r.value| == count || |drawn| == |Fields(t.countX, t.countY)|
    ensures r == Err(IndexOutOfBounds) ==> OffGridIn(noise, t, drawn)
    ensures r.Ok? ==> |r.value| <= count && |r.value| <= |Fields(t.countX, t.countY)|
    ensures r.Ok? ==> Spaced(r.value, Spacing(t))
    ensures r.Ok? ==> forall c :: c in r.value ==> OnHighGround(noise, t, c.location)
  {
    drawn := [];
    if t.countX * t.countY < count {
      return Err(IllegalArgument), drawn;
    }
    var fields := Fields(t.countX, t.countY);
    ghost var all := fields;
    var cs: seq<Castle> := [];
    var k := 0;
    while |fields| > 0 && |cs| < count
      invariant |cs| <= count && |cs| <= |drawn|
      invariant multiset(fields) + multiset(drawn) == multiset(all)
      invariant |fields| + |drawn| == |all|
      invariant forall p :: p in fields ==> p.x >= 0 && p.y >= 0
      invariant Spaced(cs, Spacing(t))
      invariant forall c :: c in cs ==> OnHighGround(noise, t, c.location)
    {
      var i := Draw(pick, k, |fields|);
      var f := fields[i];
      RemoveAt(fields, i);
      fields := fields[..i] + fields[i + 1..];
      drawn := drawn + [f];
      k := k + 1;
      var placed := TryField(noise, t, cs, f);
      if placed.Err? {
        OffGridDrawn(noise, t, drawn, f);
        return Err(IndexOutOfBounds), drawn;
      }
      cs := placed.value;
    }
    return Ok(cs), drawn;
  }

  /** One drawn field: the scan of `FindSite`, and the castle it finds, if
      any, added to the placed ones. */
  method TryField(noise: seq<seq<real>>, t: Tiles, cs: seq<Castle>, f: Point) returns (r: Result<seq<Castle>>)
    requires f.x >= 0 && f.y >= 0
    requires Spaced(cs, Spacing(t))
    requires forall c :: c in cs ==> OnHighGround(noise, t, c.location)
    ensures r.Err? ==> r.fault == IndexOutOfBounds
    ensures r.Err? ==> exists dx, dy :: 0 <= dx <= t.width / 2 && 0 <= dy <= t.height / 2
                                        && !InNoise(noise, ProbePoint(t, Offset(Corner(t, f), dx, dy)))
    ensures r.Ok? ==> |cs| <= |r.value| <= |cs| + 1 && r.value[..|cs|] == cs
    ensures r.Ok? ==> Spaced(r.value, Spacing(t))
    ensures r.Ok? ==> forall c :: c in r.value ==> OnHighGround(noise, t, c.location)
  {
    var site := FindSite(noise, t, cs, Corner(t, f));
    if site.Err? {
      return Err(IndexOutOfBounds);
    }
    if site.value.Some? {
      var c := site.value.value;
      SpacedExtend(cs, Castle(c), Spacing(t));
      return Ok(cs + [Castle(c)]);
    }
    return Ok(cs);
  }

  /** Taking out element i leaves the rest of the multiset. */
  lemma RemoveAt<T>(s: seq<T>, i: nat)
    requires i < |s|
    ensures multiset(s[..i] + s[i + 1..]) + multiset{s[i]} == multiset(s)
    ensures |s[..i] + s[i + 1..]| == |s| - 1
  {
    assert s == s[..i] + [s[i]] + s[i + 1..];
  }

  /** A drawn field whose scan left the noise grid witnesses the index error. */
  ghost predicate OffGridIn(noise: seq<seq<real>>, t: Tiles, drawn: seq<Point>) {
    exists f, dx, dy :: && f in drawn && f.x >= 0 && f.y >= 0
                        && 0 <= dx <= t.width / 2 && 0 <= dy <= t.height / 2
                        && !InNoise(noise, ProbePoint(t, Offset(Corner(t, f), dx, dy)))
  }

  lemma OffGridDrawn(noise: seq<seq<real>>, t: Tiles, drawn: seq<Point>, f: Point)
    requires |drawn| > 0 && drawn[|drawn| - 1] == f && f.x >= 0 && f.y >= 0
    requires exists dx, dy :: 0 <= dx <= t.width / 2 && 0 <= dy <= t.height / 2
                              && !InNoise(noise, ProbePoint(t, Offset(Corner(t, f), dx, dy)))
    ensures OffGridIn(noise, t, drawn)
  {
    var dx, dy :| 0 <= dx <= t.width / 2 && 0 <= dy <= t.height / 2
                  && !InNoise(noise, ProbePoint(t, Offset(Corner(t, f), dx, dy)));
    assert f in drawn;
  }

  /** A castle clear of all placed ones keeps the placement spaced. */
  lemma SpacedExtend(cs: seq<Castle>, c: Castle, m: nat)
    requires Spaced(cs, m) && Clear(cs, c.location, m)
    ensures Spaced(cs + [c], m)
  {
    var cs' := cs + [c];
    forall i, j | 0 <= i < j < |cs'| ensures !Closer(cs'[i].location, cs'[j].location, m) {
      if j == |cs| {
        assert cs'[i] in cs;
      }
    }
  }
}

=== FILE: clustering.dfy ===
/** Kingdom formation, `Clustering` (src/game/map/Clustering.java), following
    the code as written.

    k-means on castle positions with integer centres. Initial centres come from
    k random doubles per axis in [0, 1), scaled by 50 and truncated. Each round
    assigns every castle to its nearest centre (the lowest index on ties), then
    moves every centre to the truncated mean of its castles, or to (0, 0) for a
    centre without castles (the NaN of 0/0 casts to 0). The loop stops when the
    FIRST centre did not move; the kingdoms then keep the centres the castles
    were assigned against, not the recomputed ones. The loop need not stop, so
    the model runs it for at most `fuel` rounds.

    The stop test as written only looks at the first centre; ClusterAsWritten
    keeps that, Cluster compares all centres as evidently intended. */
module Clustering {
  import opened Util
  import opened Geometry
  import opened Castles

  /** A kingdom: its index (0..k-1), its castles as indices into the castle
      list in list order, and its centre. */
  datatype Kingdom = Kingdom(index: nat, castles: seq<nat>, centre: Point)

  const Scale: real := 50.0

  /** `(int) (d * 50)` per draw, for x and y (src/game/map/Clustering.java:49-62). */
  function InitialCentres(xs: seq<real>, ys: seq<real>): (cs: seq<Point>)
    requires |xs| == |ys|
    ensures |cs| == |xs|
    ensures forall i :: 0 <= i < |cs| ==> cs[i] == Point(Trunc(xs[i] * Scale), Trunc(ys[i] * Scale))
  {
    seq(|xs|, i requires 0 <= i < |xs| => Point(Trunc(xs[i] * Scale), Trunc(ys[i] * Scale)))
  }

  /** Draws in [0, 1) give centres in the square [0, 50) x [0, 50). */
  lemma InitialCentresInSquare(xs: seq<real>, ys: seq<real>)
    requires |xs| == |ys|
    requires forall i :: 0 <= i < |xs| ==> 0.0 <= xs[i] < 1.0 && 0.0 <= ys[i] < 1.0
    ensures forall p :: p in InitialCentres(xs, ys) ==> 0 <= p.x < 50 && 0 <= p.y < 50
  {
    var cs := InitialCentres(xs, ys);
    forall p | p in cs ensures 0 <= p.x < 50 && 0 <= p.y < 50 {
      var i :| 0 <= i < |cs| && cs[i] == p;
      assert xs[i] * Scale < 50.0 && ys[i] * Scale < 50.0;
    }
  }

  /** Index of the centre nearest to p; the first one on ties
      (src/game/map/Clustering.java:66-77). */
  function NearestCentre(p: Point, cs: seq<Point>): (k: nat)
    requires |cs| > 0
    ensures k < |cs|
    ensures forall i :: 0 <= i < |cs| ==> DistSq(p, cs[k]) <= DistSq(p, cs[i])
    ensures forall i :: 0 <= i < k ==> DistSq(p, cs[k]) < DistSq(p, cs[i])
  {
    if |cs| == 1 then 0
    else
      var init := cs[..|cs| - 1];
      var k := NearestCentre(p, init);
      assert forall i :: 0 <= i < |init| ==> init[i] == cs[i];
      if DistSq(p, cs[|cs| - 1]) < DistSq(p, cs[k]) then |cs| - 1 else k
  }

  /** The kingdom index of every castle after one assignment round. */
  function Assign(castles: seq<Castle>, cs: seq<Point>): (a: seq<nat>)
    requires |cs| > 0
    ensures |a| == |castles|
    ensures forall c :: 0 <= c < |castles| ==> a[c] == NearestCentre(castles[c].location, cs)
  {
    seq(|castles|, c requires 0 <= c < |castles| => NearestCentre(castles[c].location, cs))
  }

  /** The castles assigned to kingdom k, in castle-list order. */
  function Members(a: seq<nat>, k: nat): (r: seq<nat>)
    ensures forall c: nat :: c in r <==> c < |a| && a[c] == k
    ensures forall j :: 0 <= j < |r| ==> r[j] < |a| && a[r[j]] == k
    ensures forall i, j :: 0 <= i < j < |r| ==> r[i] < r[j]
  {
    if |a| == 0 then []
    else
      var r := Members(a[..|a| - 1], k);
      assert forall c: nat :: c < |a| - 1 ==> a[..|a| - 1][c] == a[c];
      r + (if a[|a| - 1] == k then [|a| - 1] else [])
  }

  function Sum(xs: seq<int>): int {
    if |xs| == 0 then 0 else Sum(xs[..|xs| - 1]) + xs[|xs| - 1]
  }

  /** `(int) ((double) sum / n)`: the mean truncated toward zero, and 0 for no
      values, where Java's NaN casts to 0. */
  function Mean(xs: seq<int>): int {
    if |xs| == 0 then 0 else Trunc(Sum(xs) as real / |xs| as real)
  }

  lemma {:induction false} SumBounds(xs: seq<int>, lo: int, hi: int)
    requires forall i :: 0 <= i < |xs| ==> lo <= xs[i] <= hi
    ensures |xs| * lo <= Sum(xs) <= |xs| * hi
  {
    if |xs| > 0 {
      var init := xs[..|xs| - 1];
      assert forall i :: 0 <= i < |init| ==> init[i] == xs[i];
      SumBounds(init, lo, hi);
      MulSucc(|init|, lo);
      MulSucc(|init|, hi);
    }
  }

  lemma MulSucc(n: nat, a: int)
    ensures (n + 1) * a == n * a + a
  {
  }

  /** The truncated mean stays within the bounds of the values. */
  lemma MeanBounds(xs: seq<int>, lo: int, hi: int)
    requires |xs| > 0
    requires forall i :: 0 <= i < |xs| ==> lo <= xs[i] <= hi
    ensures lo <= Mean(xs) <= hi
  {
    SumBounds(xs, lo, hi);
    QuotientBounds(Sum(xs), |xs|, lo, hi);
  }

  lemma QuotientBounds(s: int, n: nat, lo: int, hi: int)
    requires n > 0 && n * lo <= s <= n * hi
    ensures lo <= Trunc(s as real / n as real) <= hi
  {
    var m := s as real / n as real;
    ScaledBound(n, lo);
    ScaledBound(n, hi);
    DivMono((n * lo) as real, s as real, n as real);
    DivMono(s as real, (n * hi) as real, n as real);
    TruncBetween(m, lo, hi);
  }

  lemma ScaledBound(n: nat, v: int)
    requires n > 0
    ensures (n * v) as real / n as real == v as real
  {
    assert (n * v) as real == (n as real) * (v as real);
  }

  lemma TruncBetween(m: real, lo: int, hi: int)
    requires lo as real <= m <= hi as real
    ensures lo <= Trunc(m) <= hi
  {
  }

  lemma DivMono(a: real, b: real, n: real)
    requires n > 0.0 && a <= b
    ensures a / n <= b / n
  {
  }

  /** The positions of the given castles. */
  function Locations(castles: seq<Castle>, members: seq<nat>): (ps: seq<Point>)
    requires Within(members, |castles|)
    ensures |ps| == |members|
    ensures forall j :: 0 <= j < |members| ==> ps[j] == castles[members[j]].location
  {
    seq(|members|, j requires 0 <= j < |members| => castles[members[j]].location)
  }

  /** Every index in the list is below n. */
  predicate Within(members: seq<nat>, n: nat) {
    forall j :: 0 <= j < |members| ==> members[j] < n
  }

  function Xs(ps: seq<Point>): (xs: seq<int>)
    ensures |xs| == |ps| && forall j :: 0 <= j < |ps| ==> xs[j] == ps[j].x
  {
    seq(|ps|, j requires 0 <= j < |ps| => ps[j].x)
  }

  function Ys(ps: seq<Point>): (ys: seq<int>)
    ensures |ys| == |ps| && forall j :: 0 <= j < |ps| ==> ys[j] == ps[j].y
  {
    seq(|ps|, j requires 0 <= j < |ps| => ps[j].y)
  }

  /** The centre recomputed for a set of castles (src/game/map/Clustering.java:80-97). */
  function Centroid(castles: seq<Castle>, members: seq<nat>): (p: Point)
    requires Within(members, |castles|)
    ensures |members| == 0 ==> p == Point(0, 0)
  {
    var ps := Locations(castles, members);
    Point(Mean(Xs(ps)), Mean(Ys(ps)))
  }

  /** A kingdom's recomputed centre lies in the bounding box of its castles. */
  lemma CentroidInBox(castles: seq<Castle>, members: seq<nat>, lo: Point, hi: Point)
    requires |members| > 0 && Within(members, |castles|)
    requires forall j :: 0 <= j < |members| ==>
               var c := castles[members[j]].location; lo.x <= c.x <= hi.x && lo.y <= c.y <= hi.y
    ensures var p := Centroid(castles, members); lo.x <= p.x <= hi.x && lo.y <= p.y <= hi.y
  {
    var ps := Locations(castles, members);
    MeanBounds(Xs(ps), lo.x, hi.x);
    MeanBounds(Ys(ps), lo.y, hi.y);
  }

  /** The centres after one round. */
  function NewCentres(castles: seq<Castle>, cs: seq<Point>): (ns: seq<Point>)
    requires |cs| > 0
    ensures |ns| == |cs|
    ensures forall i :: 0 <= i < |cs| ==>
              ns[i] == Centroid(castles, Members(Assign(castles, cs), i))
  {
    var a := Assign(castles, cs);
    seq(|cs|, i requires 0 <= i < |cs| => Centroid(castles, Members(a, i)))
  }

  /** The kingdoms built once the loop stops (src/game/map/Clustering.java:110-119). */
  function Kingdoms(castles: seq<Castle>, cs: seq<Point>): (ks: seq<Kingdom>)
    requires |cs| > 0
    ensures |ks| == |cs|
    ensures forall i :: 0 <= i < |ks| ==> ks[i] == Kingdom(i, Members(Assign(castles, cs), i), cs[i])
  {
    var a := Assign(castles, cs);
    seq(|cs|, i requires 0 <= i < |cs| => Kingdom(i, Members(a, i), cs[i]))
  }

  function Centres(ks: seq<Kingdom>): (cs: seq<Point>)
    ensures |cs| == |ks| && forall i :: 0 <= i < |ks| ==> cs[i] == ks[i].centre
  {
    seq(|ks|, i requires 0 <= i < |ks| => ks[i].centre)
  }

  /** Kingdom i is numbered i and holds exactly the castles whose nearest
      centre (the first on ties) is its own. */
  ghost predicate Assigned(castles: seq<Castle>, ks: seq<Kingdom>) {
    && |ks| > 0
    && (forall i :: 0 <= i < |ks| ==> ks[i].index == i && Within(ks[i].castles, |castles|))
    && (forall i, c: nat :: 0 <= i < |ks| ==>
          (c in ks[i].castles <==> c < |castles| && NearestCentre(castles[c].location, Centres(ks)) == i))
  }

  /** What the loop as written guarantees when it stops: the assignment above,
      and the first kingdom's centre is the centroid of its castles. */
  ghost predicate Clustered(castles: seq<Castle>, ks: seq<Kingdom>) {
    Assigned(castles, ks) && Centroid(castles, ks[0].castles) == ks[0].centre
  }

  /** A k-means fixed point: every kingdom's centre is the centroid of its castles. */
  ghost predicate Stable(castles: seq<Castle>, ks: seq<Kingdom>) {
    Assigned(castles, ks) && forall i :: 0 <= i < |ks| ==> Centroid(castles, ks[i].castles) == ks[i].centre
  }

  /** Stopping at centres cs yields kingdoms assigned against cs. */
  lemma KingdomsAssigned(castles: seq<Castle>, cs: seq<Point>)
    requires |cs| > 0
    ensures Assigned(castles, Kingdoms(castles, cs)) && Centres(Kingdoms(castles, cs)) == cs
  {
    var ks := Kingdoms(castles, cs);
    assert Centres(ks) == cs;
    var a := Assign(castles, cs);
    forall i, c: nat | 0 <= i < |ks|
      ensures c in ks[i].castles <==> c < |castles| && NearestCentre(castles[c].location, cs) == i
    {
      assert ks[i].castles == Members(a, i);
    }
  }

  /** Assigned kingdoms partition the castles: every castle lies in exactly one
      kingdom, and no kingdom holds anything else. */
  lemma AssignedPartition(castles: seq<Castle>, ks: seq<Kingdom>, c: nat)
    requires Assigned(castles, ks)
    ensures c < |castles| ==> exists i :: 0 <= i < |ks| && c in ks[i].castles
    ensures forall i, j :: 0 <= i < |ks| && 0 <= j < |ks| && c in ks[i].castles && c in ks[j].castles ==> i == j
    ensures (exists i :: 0 <= i < |ks| && c in ks[i].castles) ==> c < |castles|
  {
    if c < |castles| {
      var i := NearestCentre(castles[c].location, Centres(ks));
      assert c in ks[i].castles;
    }
  }

  /** The loop of src/game/map/Clustering.java:64-126 as written, from centres
      `cs`, for at most `fuel` rounds: it stops as soon as the FIRST centre does
      not move. */
  function ClusterAsWritten(castles: seq<Castle>, cs: seq<Point>, fuel: nat): (r: Result<seq<Kingdom>>)
    requires |cs| > 0
    ensures r.Err? ==> r.fault == Diverged
    ensures r.Ok? ==> |r.value| == |cs| && Clustered(castles, r.value)
    decreases fuel
  {
    if fuel == 0 then Err(Diverged)
    else
      var ns := NewCentres(castles, cs);
      if ns[0] == cs[0] then
        KingdomsAssigned(castles, cs);
        Ok(Kingdoms(castles, cs))
      else ClusterAsWritten(castles, ns, fuel - 1)
  }

  /** The loop as evidently intended: it stops only when no centre moves. */
  function Cluster(castles: seq<Castle>, cs: seq<Point>, fuel: nat): (r: Result<seq<Kingdom>>)
    requires |cs| > 0
    ensures r.Err? ==> r.fault == Diverged
    ensures r.Ok? ==> |r.value| == |cs| && Stable(castles, r.value)
    decreases fuel
  {
    if fuel == 0 then Err(Diverged)
    else
      var ns := NewCentres(castles, cs);
      if ns == cs then
        KingdomsAssigned(castles, cs);
        Ok(Kingdoms(castles, cs))
      else Cluster(castles, ns, fuel - 1)
  }

  /** Whenever the intended loop stops, the loop as written stops there too,
      with the same kingdoms; the converse fails (OnlyFirstCentreDecidesStop). */
  lemma {:induction false} StableStopsAsWritten(castles: seq<Castle>, cs: seq<Point>, fuel: nat)
    requires |cs| > 0 && NewCentres(castles, cs) == cs && fuel > 0
    ensures ClusterAsWritten(castles, cs, fuel) == Cluster(castles, cs, fuel)
  {
  }

  /** `new Clustering(castles, k).getPointsClusters()`: fewer than two kingdoms
      are refused; otherwise k kingdoms from the loop as written, which
      guarantees the assignment and the first kingdom's centroid only. `xs`
      and `ys` are the k random doubles drawn for each axis. */
  function GetPointsClusters(castles: seq<Castle>, k: int, xs: seq<real>, ys: seq<real>, fuel: nat)
    : (r: Result<seq<Kingdom>>)
    requires k >= 2 ==> |xs| == k && |ys| == k
    ensures r == Err(IllegalArgument) <==> k < 2
    ensures r.Err? ==> r.fault == IllegalArgument || r.fault == Diverged
    ensures r.Ok? ==> |r.value| == k && Clustered(castles, r.value)
  {
    if k < 2 then Err(IllegalArgument)
    else ClusterAsWritten(castles, InitialCentres(xs, ys), fuel)
  }

  /** Between two centres the second wins only when strictly nearer. */
  lemma NearestOfTwo(p: Point, c0: Point, c1: Point)
    ensures NearestCentre(p, [c0, c1]) == if DistSq(p, c1) < DistSq(p, c0) then 1 else 0
  {
    assert [c0, c1][..1] == [c0];
  }

  /** The stop test looks at the first centre only: here it stays at (10, 10)
      while the second, at (41, 41), would move to (40, 40), and the loop stops
      after one round with the second kingdom's centre away from the centroid
      of its castles, so the result is not Stable. */
  lemma OnlyFirstCentreDecidesStop()
    ensures var castles := [Castle(Point(10, 10)), Castle(Point(40, 40))];
            var r := ClusterAsWritten(castles, [Point(10, 10), Point(41, 41)], 1);
            && r.Ok?
            && r.value[1].centre == Point(41, 41)
            && r.value[1].castles == [1]
            && Centroid(castles, [1]) == Point(40, 40)
            && !Stable(castles, r.value)
  {
    var castles := [Castle(Point(10, 10)), Castle(Point(40, 40))];
    var cs := [Point(10, 10), Point(41, 41)];
    SampleAssign();
    MembersOfSample();
    SampleCentroids();
    assert NewCentres(castles, cs)[0] == cs[0];
    assert Kingdoms(castles, cs)[1] == Kingdom(1, [1], Point(41, 41));
  }

  /** The same run through the entry point: draws 0.2 and 0.82 on both axes
      give the centres (10, 10) and (41, 41), and the kingdoms returned are not
      a k-means fixed point. */
  lemma EntryPointStopsEarly()
    ensures var castles := [Castle(Point(10, 10)), Castle(Point(40, 40))];
            var r := GetPointsClusters(castles, 2, [0.2, 0.82], [0.2, 0.82], 1);
            r.Ok? && r.value[1].centre == Point(41, 41) && !Stable(castles, r.value)
  {
    var xs := [0.2, 0.82];
    assert Trunc(xs[0] * Scale) == 10 && Trunc(xs[1] * Scale) == 41;
    assert InitialCentres(xs, xs) == [Point(10, 10), Point(41, 41)];
    OnlyFirstCentreDecidesStop();
  }

  lemma SampleAssign()
    ensures Assign([Castle(Point(10, 10)), Castle(Point(40, 40))], [Point(10, 10), Point(41, 41)]) == [0, 1]
  {
    NearestOfTwo(Point(10, 10), Point(10, 10), Point(41, 41));
    NearestOfTwo(Point(40, 40), Point(10, 10), Point(41, 41));
  }

  lemma SampleCentroids()
    ensures var castles := [Castle(Point(10, 10)), Castle(Point(40, 40))];
            Centroid(castles, [0]) == Point(10, 10) && Centroid(castles, [1]) == Point(40, 40)
  {
    var castles := [Castle(Point(10, 10)), Castle(Point(40, 40))];
    MeanOfOne(10);
    MeanOfOne(40);
    assert Locations(castles, [0]) == [Point(10, 10)];
    assert Xs([Point(10, 10)]) == [10] && Ys([Point(10, 10)]) == [10];
    assert Locations(castles, [1]) == [Point(40, 40)];
    assert Xs([Point(40, 40)]) == [40] && Ys([Point(40, 40)]) == [40];
  }

  lemma MembersOfSample()
    ensures Members([0, 1], 0) == [0] && Members([0, 1], 1) == [1]
  {
    var a1: seq<nat> := [0];
    assert a1 + [1] == [0, 1];
    MembersSnoc([], 0, 0);
    MembersSnoc([], 0, 1);
    MembersSnoc(a1, 1, 0);
    MembersSnoc(a1, 1, 1);
  }

  lemma MembersSnoc(a: seq<nat>, x: nat, k: nat)
    ensures Members(a + [x], k) == Members(a, k) + (if x == k then [|a|] else [])
  {
    assert (a + [x])[..|a|] == a;
  }

  lemma MeanOfOne(v: nat)
    ensures Mean([v]) == v
  {
    assert [v][..0] == [];
    assert Sum([v]) == v;
    assert v as real / 1.0 == v as real;
  }
}

=== FILE: connectivity.dfy ===
/** `Graph.allNodesConnected` (src/base/Graph.java) and the frontier expansion it
    shares with the component-merge pass of `GameMap.generateEdges`. */
module Connectivity {
  import opened Util
  import opened Graphs

  /** What the expansion from `start` can discover: nothing when `start` has no
      edge, otherwise every node reachable from it (including itself). */
  ghost predicate Discoverable<T>(g: Graph<T>, start: nat, v: nat) {
    Degree(g, start) > 0 && v < |g.values| && Reachable(g, start, v)
  }

  /** The graph-level statement `allNodesConnected` is meant to decide. */
  ghost predicate AllReachableFromFirst<T>(g: Graph<T>) {
    |g.values| > 0 && Degree(g, 0) > 0 && forall v :: 0 <= v < |g.values| ==> Reachable(g, 0, v)
  }

  lemma DiscoverAcross<T>(g: Graph<T>, start: nat, e: Edge, x: nat)
    requires g.Wf() && e in g.edges && Touches(e, x) && Discoverable(g, start, x)
    ensures Discoverable(g, start, e.a) && Discoverable(g, start, e.b)
  {
    if e.a == x {
      assert Adjacent(g, x, e.b);
      ReachableStep(g, start, x, e.b);
    } else {
      assert Adjacent(g, x, e.a);
      ReachableStep(g, start, x, e.a);
    }
  }

  lemma DiscoverStart<T>(g: Graph<T>, start: nat, e: Edge)
    requires g.Wf() && start < |g.values| && e in g.edges && Touches(e, start)
    ensures Discoverable(g, start, e.a) && Discoverable(g, start, e.b)
  {
    assert e in Incident(g.edges, start);
    ReachableRefl(g, start);
    DiscoverAcross(g, start, e, start);
  }

  /** The fixed-point loop of src/base/Graph.java:133-157 (repeated verbatim at
      src/game/map/GameMap.java:231-254): `found` is the list `newRes`, `seen`
      the edge list `a`. The loop ends when a round adds no node; the nodes found
      are then exactly the ones the start node can reach through its edges. */
  method Explore<T>(g: Graph<T>, start: nat) returns (found: seq<nat>)
    requires g.Wf() && start < |g.values|
    ensures NoDup(found)
    ensures forall v :: v in found <==> Discoverable(g, start, v)
  {
    found := [];
    var seen := Incident(g.edges, start);
    var done := false;
    forall e | e in seen ensures Discoverable(g, start, e.a) && Discoverable(g, start, e.b) {
      DiscoverStart(g, start, e);
    }
    while !done
      invariant NoDup(found)
      invariant forall v :: v in found ==> Discoverable(g, start, v)
      invariant forall e :: e in seen ==>
                  e in g.edges && Discoverable(g, start, e.a) && Discoverable(g, start, e.b)
      invariant forall e :: e in g.edges && Touches(e, start) ==> e in seen
      invariant forall e :: e in g.edges && (e.a in found || e.b in found) ==> e in seen
      invariant done ==> forall e :: e in seen ==> e.a in found && e.b in found
      decreases Below(|g.values|) - Elems(found), if done then 0 else 1
    {
      var prev := |found|;
      ghost var found0 := found;
      ghost var seen0 := seen;
      found := AddEndpoints(g, start, seen, found);
      seen := CollectIncident(g, start, found, seen);
      if prev == |found| {
        assert found == found0;
        done := true;
      } else {
        assert found[prev] !in found0;
        assert Elems(found) <= Below(|g.values|);
        assert found[prev] in Elems(found) - Elems(found0);
      }
    }
    forall v | Discoverable(g, start, v) ensures v in found {
      var e := Incident(g.edges, start)[0];
      assert e in seen && Touches(e, start);
      assert Closed(g, Elems(found));
      ClosedHoldsReach(g, Elems(found), start, v);
    }
  }

  /** First inner loop of a round: every endpoint of a collected edge that is
      not yet in `found` is appended to it. */
  method AddEndpoints<T>(g: Graph<T>, start: nat, seen: seq<Edge>, found: seq<nat>)
    returns (found': seq<nat>)
    requires NoDup(found)
    requires forall v :: v in found ==> Discoverable(g, start, v)
    requires forall e :: e in seen ==> Discoverable(g, start, e.a) && Discoverable(g, start, e.b)
    ensures NoDup(found') && |found'| >= |found| && found'[..|found|] == found
    ensures forall v :: v in found' ==> Discoverable(g, start, v)
    ensures forall e :: e in seen ==> e.a in found' && e.b in found'
  {
    found' := found;
    var k := 0;
    while k < |seen|
      invariant 0 <= k <= |seen|
      invariant |found'| >= |found| && found'[..|found|] == found
      invariant NoDup(found')
      invariant forall v :: v in found' ==> Discoverable(g, start, v)
      invariant forall i :: 0 <= i < k ==> seen[i].a in found' && seen[i].b in found'
    {
      var e := seen[k];
      if e.a !in found' {
        found' := found' + [e.a];
      }
      if e.b !in found' {
        found' := found' + [e.b];
      }
      k := k + 1;
    }
  }

  /** The edges at one found node x that are not yet in `seen` are appended. */
  method CollectAt<T>(g: Graph<T>, start: nat, x: nat, seen: seq<Edge>) returns (seen': seq<Edge>)
    requires g.Wf() && Discoverable(g, start, x)
    requires forall e :: e in seen ==>
               e in g.edges && Discoverable(g, start, e.a) && Discoverable(g, start, e.b)
    ensures forall e :: e in seen ==> e in seen'
    ensures forall e :: e in seen' ==>
              e in g.edges && Discoverable(g, start, e.a) && Discoverable(g, start, e.b)
    ensures forall e :: e in g.edges && Touches(e, x) ==> e in seen'
    ensures forall e :: e in seen' ==> e in seen || Touches(e, x)
  {
    seen' := seen;
    var b := Incident(g.edges, x);
    var m := 0;
    while m < |b|
      invariant 0 <= m <= |b|
      invariant forall e :: e in seen ==> e in seen'
      invariant forall e :: e in seen' ==>
                  e in g.edges && Discoverable(g, start, e.a) && Discoverable(g, start, e.b)
      invariant forall i :: 0 <= i < m ==> b[i] in seen'
      invariant forall e :: e in seen' ==> e in seen || Touches(e, x)
    {
      var e := b[m];
      if e !in seen' {
        DiscoverAcross(g, start, e, x);
        seen' := seen' + [e];
      }
      m := m + 1;
    }
  }

  /** Second inner loop of a round: every edge touching a found node that is not
      yet collected is appended to `seen`. */
  method CollectIncident<T>(g: Graph<T>, start: nat, found: seq<nat>, seen: seq<Edge>)
    returns (seen': seq<Edge>)
    requires g.Wf()
    requires forall v :: v in found ==> Discoverable(g, start, v)
    requires forall e :: e in seen ==>
               e in g.edges && Discoverable(g, start, e.a) && Discoverable(g, start, e.b)
    ensures forall e :: e in seen ==> e in seen'
    ensures forall e :: e in seen' ==>
              e in g.edges && Discoverable(g, start, e.a) && Discoverable(g, start, e.b)
    ensures forall e :: e in g.edges && (e.a in found || e.b in found) ==> e in seen'
    ensures forall e :: e in seen' ==> e in seen || e.a in found || e.b in found
  {
    seen' := seen;
    var j := 0;
    while j < |found|
      invariant 0 <= j <= |found|
      invariant forall e :: e in seen ==> e in seen'
      invariant forall e :: e in seen' ==>
                  e in g.edges && Discoverable(g, start, e.a) && Discoverable(g, start, e.b)
      invariant forall e :: e in g.edges && (e.a in found[..j] || e.b in found[..j]) ==> e in seen'
      invariant forall e :: e in seen' ==> e in seen || e.a in found[..j] || e.b in found[..j]
    {
      var x := found[j];
      assert found[..j + 1] == found[..j] + [x];
      seen' := CollectAt(g, start, x, seen');
      j := j + 1;
    }
    assert found[..j] == found;
  }

  /** `allNodesConnected`: fails on an empty graph (`nodes.get(0)`), otherwise
      reports whether node 0 has an edge and reaches every node. A lone node
      without a self-loop is therefore reported as not connected. */
  method AllNodesConnected<T>(g: Graph<T>) returns (r: Result<bool>)
    requires g.Wf()
    ensures r.Err? <==> |g.values| == 0
    ensures r.Err? ==> r.fault == IndexOutOfBounds
    ensures r.Ok? ==> (r.value <==> AllReachableFromFirst(g))
  {
    if |g.values| == 0 {
      return Err(IndexOutOfBounds);
    }
    var found := Explore(g, 0);
    NoDupBelow(found, |g.values|);
    if AllReachableFromFirst(g) {
      forall v: nat | v < |g.values| ensures v in Elems(found) {
        assert Discoverable(g, 0, v);
      }
      assert Elems(found) == Below(|g.values|);
    }
    var all := !(|found| < |g.values|);
    if all {
      forall v | 0 <= v < |g.values| ensures Reachable(g, 0, v) {
        assert v in Below(|g.values|);
        assert v in found;
      }
      assert 0 in Below(|g.values|);
      assert 0 in found;
    }
    return Ok(all);
  }

  /** The cycle a-b-c-d-a is connected. */
  lemma CycleIsConnected()
    ensures AllReachableFromFirst(Graph([1, 2, 3, 4], [Edge(0, 1), Edge(1, 2), Edge(2, 3), Edge(0, 3)]))
  {
    var g := Graph([1, 2, 3, 4], [Edge(0, 1), Edge(1, 2), Edge(2, 3), Edge(0, 3)]);
    CycleFirstHasRoad(g);
    CycleReaches(g);
  }

  lemma CycleFirstHasRoad(g: Graph<int>)
    requires g.edges == [Edge(0, 1), Edge(1, 2), Edge(2, 3), Edge(0, 3)]
    ensures Degree(g, 0) > 0
  {
    assert Edge(0, 1) in Incident(g.edges, 0);
  }

  lemma CycleReaches(g: Graph<int>)
    requires g.values == [1, 2, 3, 4] && g.edges == [Edge(0, 1), Edge(1, 2), Edge(2, 3), Edge(0, 3)]
    ensures forall v :: 0 <= v < |g.values| ==> Reachable(g, 0, v)
  {
    assert Adjacent(g, 0, 1) && Adjacent(g, 1, 2) && Adjacent(g, 0, 3);
    ReachableRefl(g, 0);
    ReachableStep(g, 0, 0, 1);
    ReachableStep(g, 0, 1, 2);
    ReachableStep(g, 0, 0, 3);
  }

  /** The path a-b-c with d left without edges is not connected. */
  lemma PathWithIsolatedNodeIsNot()
    ensures !AllReachableFromFirst(Graph([1, 2, 3, 4], [Edge(0, 1), Edge(1, 2)]))
  {
    var g := Graph([1, 2, 3, 4], [Edge(0, 1), Edge(1, 2)]);
    assert Closed(g, {0, 1, 2});
    if Reachable(g, 0, 3) {
      ClosedHoldsReach(g, {0, 1, 2}, 0, 3);
    }
  }

  /** A single node without edges is reported as not connected. */
  lemma LoneNodeIsNot<T>(v: T)
    ensures !AllReachableFromFirst(Graph([v], []))
  {
    assert Incident([], 0) == [];
  }
}

=== FILE: edges.dfy ===
/** Road generation, `GameMap.generateEdges` (src/game/map/GameMap.java:155-284).

    Four passes over the castle graph, each only ever appending edges:
    1. join every pair closer than the map's road limit while the lower
       castle has fewer than three roads;
    2. join every castle without a road to its nearest other castle;
    3. where a castle's only road leads to a castle whose only road it is,
       join the first one to its nearest castle outside that pair;
    4. for each castle not yet seen, collect its component and, unless it is
       the whole map, join one of its castles to the nearest castle outside.
    Distances are compared squared, which orders them as the square roots do.
    The random component member of pass 4 is `pick(k)` for the k-th merge,
    reduced modulo the component size. */
module Topology {
  import opened Util
  import opened Geometry
  import opened Graphs
  import opened Castles
  import Connectivity

  type CastleGraph = Graph<Castle>

  /** The road length limit by map width (src/game/map/GameMap.java:159-165):
      other widths get 0, which disables pass 1. */
  function MaxDistance(width: int): (r: nat)
    ensures r > 0 <==> width == 15 || width == 27 || width == 48
    ensures width == 15 ==> r == 150
    ensures width == 27 ==> r == 200
    ensures width == 48 ==> r == 300
  {
    if width == 15 then 150
    else if width == 27 then 200
    else if width == 48 then 300
    else 0
  }

  function Loc(g: CastleGraph, i: nat): Point
    requires i < |g.values|
  {
    g.values[i].location
  }

  function Dist2(g: CastleGraph, i: nat, j: nat): nat
    requires i < |g.values| && j < |g.values|
  {
    DistSq(Loc(g, i), Loc(g, j))
  }

  /** b is the castle outside `excl` nearest to `from`; among equally near
      ones, the first. */
  ghost predicate NearestTo(g: CastleGraph, from: nat, excl: set<nat>, b: nat)
    requires from < |g.values|
  {
    && b < |g.values| && b !in excl
    && forall j :: 0 <= j < |g.values| && j !in excl ==>
         Dist2(g, from, b) <= Dist2(g, from, j) && (j < b ==> Dist2(g, from, b) < Dist2(g, from, j))
  }

  /** The nearest-castle search shared by passes 2, 3 and 4: the first
      candidate, then strictly nearer ones; `dflt` when there is no candidate. */
  method Nearest(g: CastleGraph, from: nat, excl: set<nat>, dflt: nat) returns (b: nat)
    requires from < |g.values|
    ensures (exists j :: 0 <= j < |g.values| && j !in excl) ==> NearestTo(g, from, excl, b)
    ensures (forall j :: 0 <= j < |g.values| ==> j in excl) ==> b == dflt
  {
    b := dflt;
    var found := false;
    var j := 0;
    while j < |g.values|
      invariant 0 <= j <= |g.values|
      invariant found <==> exists j' :: 0 <= j' < j && j' !in excl
      invariant !found ==> b == dflt
      invariant found ==> b < j && b !in excl
      invariant found ==> forall j' :: 0 <= j' < j && j' !in excl ==>
                  Dist2(g, from, b) <= Dist2(g, from, j') && (j' < b ==> Dist2(g, from, b) < Dist2(g, from, j'))
    {
      if j !in excl {
        if !found {
          b := j;
          found := true;
        } else if Dist2(g, from, j) < Dist2(g, from, b) {
          b := j;
        }
      }
      j := j + 1;
    }
  }

  // ---------------------------------------------------------------------
  // What each pass guarantees of the edges it adds

  /** The four passes, as labels for the guarantee each gives about its edges. */
  datatype Pass = Near(maxD: nat) | Isolated | Pair | Merge

  /** The other end of x's first road. */
  function Partner(g: CastleGraph, x: nat): nat
    requires Degree(g, x) >= 1
  {
    Other(Incident(g.edges, x)[0], x)
  }

  /** Edge e, added to the graph `before`, is one pass p adds:
      - pass 1: e joins a castle to a later one nearer than maxD, and the first
        had fewer than three roads;
      - pass 2: e.a had no road and e.b is its nearest other castle (itself on a
        one-castle map);
      - pass 3: e.a and its partner each had exactly one road, and e.b is the
        nearest castle outside the pair;
      - pass 4: e joins two castles that were not connected. */
  ghost predicate Fits(before: CastleGraph, e: Edge, p: Pass) {
    match p
    case Near(maxD) =>
      && e.a < e.b < |before.values|
      && Closer(Loc(before, e.a), Loc(before, e.b), maxD)
      && Degree(before, e.a) < 3
    case Isolated =>
      && e.a < |before.values|
      && Degree(before, e.a) == 0
      && (NearestTo(before, e.a, {e.a}, e.b) || (|before.values| == 1 && e.b == e.a))
    case Pair =>
      && e.a < |before.values|
      && Degree(before, e.a) == 1
      && Degree(before, Partner(before, e.a)) == 1
      && NearestTo(before, e.a, {e.a, Partner(before, e.a)}, e.b)
    case Merge =>
      !Reachable(before, e.a, e.b)
  }

  /** Every edge r has beyond g was added as pass p adds edges, each judged
      against the graph as it stood just before it. */
  ghost predicate AddedBy(r: CastleGraph, g: CastleGraph, p: Pass) {
    && Extends(r, g)
    && forall k :: |g.edges| <= k < |r.edges| ==> Fits(Prefix(r, k), r.edges[k], p)
  }

  /** Appending edges leaves the earlier prefixes of the edge list alone. */
  lemma PrefixStable(r': CastleGraph, r: CastleGraph, k: nat)
    requires Extends(r', r) && k < |r.edges|
    ensures Prefix(r', k) == Prefix(r, k) && r'.edges[k] == r.edges[k]
  {
    assert r'.edges[..k] == r'.edges[..|r.edges|][..k];
  }

  lemma AddedByTrans(r2: CastleGraph, r1: CastleGraph, g: CastleGraph, p: Pass)
    requires AddedBy(r2, r1, p) && AddedBy(r1, g, p)
    ensures AddedBy(r2, g, p)
  {
    ExtendsTrans(r2, r1, g);
    forall k | |g.edges| <= k < |r1.edges| ensures Fits(Prefix(r2, k), r2.edges[k], p) {
      PrefixStable(r2, r1, k);
    }
  }

  /** After appending one edge to r, the prefix before it is r itself. */
  lemma LastPrefix(r': CastleGraph, r: CastleGraph, x: nat, y: nat)
    requires r' == AddEdge(r, x, y).0 && !Linked(r, x, y)
    ensures |r'.edges| == |r.edges| + 1 && Prefix(r', |r.edges|) == r
    ensures r'.edges[|r.edges|] == Edge(x, y)
    ensures Degree(r', x) == Degree(r, x) + 1
  {
    assert r'.edges[..|r.edges|] == r.edges;
    DegreeGrows(r, [Edge(x, y)], x);
    assert Incident([Edge(x, y)], x) == [Edge(x, y)];
  }

  /** `addEdge(x, y)` adds an edge only when none joins x and y yet, so it adds
      as pass p does whenever a new edge (x, y) would fit p. */
  lemma AddEdgeAdded(r: CastleGraph, x: nat, y: nat, p: Pass)
    requires !Linked(r, x, y) ==> Fits(r, Edge(x, y), p)
    ensures AddedBy(AddEdge(r, x, y).0, r, p)
    ensures Linked(AddEdge(r, x, y).0, x, y)
  {
    AddEdgeExtends(r, x, y);
    if !Linked(r, x, y) {
      LastPrefix(AddEdge(r, x, y).0, r, x, y);
    }
  }

  // ---------------------------------------------------------------------
  // Pass 1 (src/game/map/GameMap.java:167-175)

  /** Pass 1 has looked at the pairs (i, j') for j' below j: each near one is
      joined, unless castle i had reached three roads. */
  ghost predicate NearDone(r: CastleGraph, i: nat, j: nat, maxD: nat)
    requires i < |r.values|
  {
    forall j' :: i < j' < j && j' < |r.values| && Closer(Loc(r, i), Loc(r, j'), maxD) ==>
      Linked(r, i, j') || Degree(r, i) >= 3
  }

  lemma NearDoneGrows(r': CastleGraph, r: CastleGraph, i: nat, j: nat, maxD: nat)
    requires Extends(r', r) && i < |r.values| && NearDone(r, i, j, maxD)
    ensures NearDone(r', i, j, maxD)
  {
    ExtendsKeeps(r', r);
  }

  /** The inner loop of pass 1 for castle i. */
  method LinkNearFrom(g: CastleGraph, i: nat, maxD: nat) returns (r: CastleGraph)
    requires g.Wf() && i < |g.values|
    ensures r.Wf() && AddedBy(r, g, Near(maxD))
    ensures NearDone(r, i, |g.values|, maxD)
  {
    r := g;
    var j := i + 1;
    while j < |g.values|
      invariant i < j <= |g.values|
      invariant r.Wf() && AddedBy(r, g, Near(maxD))
      invariant NearDone(r, i, j, maxD)
    {
      if Closer(Loc(r, i), Loc(r, j), maxD) && Degree(r, i) < 3 {
        AddEdgeAdded(r, i, j, Near(maxD));
        var r' := AddEdge(r, i, j).0;
        AddedByTrans(r', r, g, Near(maxD));
        NearDoneGrows(r', r, i, j, maxD);
        r := r';
      }
      j := j + 1;
    }
  }

  /** Pass 1: every new edge is one pass 1 adds, and every near pair ends up
      joined unless its lower castle reached three roads. */
  method LinkNear(g: CastleGraph, maxD: nat) returns (r: CastleGraph)
    requires g.Wf()
    ensures r.Wf() && AddedBy(r, g, Near(maxD))
    ensures forall i, j :: 0 <= i < j < |g.values| && Closer(Loc(g, i), Loc(g, j), maxD) ==>
              Linked(r, i, j) || Degree(r, i) >= 3
  {
    r := g;
    var i := 0;
    while i < |g.values|
      invariant 0 <= i <= |g.values|
      invariant r.Wf() && AddedBy(r, g, Near(maxD))
      invariant forall i' :: 0 <= i' < i ==> NearDone(r, i', |g.values|, maxD)
    {
      var r' := LinkNearFrom(r, i, maxD);
      AddedByTrans(r', r, g, Near(maxD));
      forall i' | 0 <= i' < i ensures NearDone(r', i', |g.values|, maxD) {
        NearDoneGrows(r', r, i', |g.values|, maxD);
      }
      r := r';
      i := i + 1;
    }
    forall i, j | 0 <= i < j < |g.values| && Closer(Loc(g, i), Loc(g, j), maxD)
      ensures Linked(r, i, j) || Degree(r, i) >= 3
    {
      assert NearDone(r, i, |g.values|, maxD);
    }
  }

  // ---------------------------------------------------------------------
  // Pass 2 (src/game/map/GameMap.java:176-197)

  lemma NoLinkWithoutRoad(g: CastleGraph, x: nat, y: nat)
    requires Degree(g, x) == 0
    ensures !Linked(g, x, y)
  {
    assert forall k :: 0 <= k < |g.edges| ==> (Touches(g.edges[k], x) ==> g.edges[k] in Incident(g.edges, x));
  }

  /** Castle i without a road, joined to what the nearest-castle search for it
      returns, gets an edge pass 2 adds. */
  lemma IsolatedFits(r: CastleGraph, i: nat, excl: set<nat>, b: nat)
    requires i < |r.values| && Degree(r, i) == 0 && excl == {i}
    requires (exists j :: 0 <= j < |r.values| && j !in excl) ==> NearestTo(r, i, excl, b)
    requires (forall j :: 0 <= j < |r.values| ==> j in excl) ==> b == i
    ensures !Linked(r, i, b) && Fits(r, Edge(i, b), Isolated)
  {
    NoLinkWithoutRoad(r, i, b);
    if |r.values| > 1 {
      var j := if i == 0 then 1 else 0;
      assert j !in excl;
    }
  }

  lemma RoadsKept(r': CastleGraph, r: CastleGraph, i: nat)
    requires Extends(r', r) && forall u :: 0 <= u < i ==> Degree(r, u) >= 1
    ensures forall u :: 0 <= u < i ==> Degree(r', u) >= 1
  {
    forall u | 0 <= u < i ensures Degree(r', u) >= 1 {
      DegreeAtLeast(r', r, u);
    }
  }

  /** Pass 2: every new edge is one pass 2 adds, and afterwards every castle
      has a road. */
  method LinkIsolated(g: CastleGraph) returns (r: CastleGraph)
    requires g.Wf()
    ensures r.Wf() && AddedBy(r, g, Isolated)
    ensures forall u :: 0 <= u < |g.values| ==> Degree(r, u) >= 1
  {
    r := g;
    var i := 0;
    while i < |g.values|
      invariant 0 <= i <= |g.values|
      invariant r.Wf() && AddedBy(r, g, Isolated) && |r.values| == |g.values|
      invariant forall u :: 0 <= u < i ==> Degree(r, u) >= 1
    {
      r := IsolatedStep(g, r, i);
      i := i + 1;
    }
  }

  /** Pass 2 at castle i: a castle without a road is joined to its nearest one. */
  method IsolatedStep(g: CastleGraph, r: CastleGraph, i: nat) returns (r': CastleGraph)
    requires r.Wf() && AddedBy(r, g, Isolated) && i < |r.values| == |g.values|
    requires forall u :: 0 <= u < i ==> Degree(r, u) >= 1
    ensures r'.Wf() && AddedBy(r', g, Isolated) && |r'.values| == |g.values|
    ensures forall u :: 0 <= u <= i ==> Degree(r', u) >= 1
  {
    r' := r;
    if Degree(r, i) == 0 {
      r' := IsolatedLink(g, r, i);
    }
    RoadsBelowNext(r', i);
  }

  /** The road pass 2 adds for a castle without one. */
  method IsolatedLink(g: CastleGraph, r: CastleGraph, i: nat) returns (r': CastleGraph)
    requires r.Wf() && AddedBy(r, g, Isolated) && i < |r.values| == |g.values|
    requires Degree(r, i) == 0 && forall u :: 0 <= u < i ==> Degree(r, u) >= 1
    ensures r'.Wf() && AddedBy(r', g, Isolated) && |r'.values| == |g.values|
    ensures Degree(r', i) >= 1 && forall u :: 0 <= u < i ==> Degree(r', u) >= 1
  {
    var b := Nearest(r, i, {i}, i);
    IsolatedFits(r, i, {i}, b);
    AddEdgeAdded(r, i, b, Isolated);
    r' := AddEdge(r, i, b).0;
    LastPrefix(r', r, i, b);
    RoadsKept(r', r, i);
    AddedByTrans(r', r, g, Isolated);
  }

  lemma RoadsBelowNext(r: CastleGraph, i: nat)
    requires Degree(r, i) >= 1 && forall u :: 0 <= u < i ==> Degree(r, u) >= 1
    ensures forall u :: 0 <= u <= i ==> Degree(r, u) >= 1
  {
  }

  // ---------------------------------------------------------------------
  // Pass 3 (src/game/map/GameMap.java:199-225)

  /** x is not one half of an isolated pair: it has two roads, or its one road
      leads to a castle with two. */
  ghost predicate Settled(g: CastleGraph, x: nat) {
    Degree(g, x) >= 2 || (Degree(g, x) == 1 && Degree(g, Partner(g, x)) >= 2)
  }

  lemma SettledGrows(g': CastleGraph, g: CastleGraph, x: nat)
    requires Extends(g', g) && Settled(g, x)
    ensures Settled(g', x)
  {
    var extra := g'.edges[|g.edges|..];
    assert g'.edges == g.edges + extra;
    IncidentAppend(g.edges, extra, x);
    DegreeAtLeast(g', g, x);
    if Degree(g, x) == 1 {
      DegreeAtLeast(g', g, Partner(g, x));
      if Degree(g', x) == 1 {
        assert Incident(g'.edges, x)[0] == Incident(g.edges, x)[0];
      }
    }
  }

  /** Pass 3 has settled every castle below i that had a road in g. */
  ghost predicate SettledBelow(r: CastleGraph, g: CastleGraph, i: nat) {
    |g.values| >= 3 ==> forall u :: 0 <= u < i && Degree(g, u) >= 1 ==> Settled(r, u)
  }

  lemma SettledBelowGrows(r': CastleGraph, r: CastleGraph, g: CastleGraph, i: nat)
    requires Extends(r', r) && SettledBelow(r, g, i)
    ensures SettledBelow(r', g, i)
  {
    forall u | 0 <= u < i && Degree(g, u) >= 1 && |g.values| >= 3 ensures Settled(r', u) {
      SettledGrows(r', r, u);
    }
  }

  /** The only edge at a castle of degree one joins it to its partner alone. */
  lemma OnlyPartnerLinked(g: CastleGraph, x: nat, y: nat)
    requires Degree(g, x) == 1
    ensures Linked(g, x, y) ==> y == x || y == Partner(g, x)
  {
    var inc := Incident(g.edges, x);
    forall k | 0 <= k < |g.edges| && Joins(g.edges[k], x, y) ensures y == x || y == Partner(g, x) {
      assert g.edges[k] in inc;
      assert g.edges[k] == inc[0];
    }
  }

  lemma FirstRoadLinksSelf(g: CastleGraph, x: nat)
    requires Degree(g, x) >= 1
    ensures Linked(g, x, x)
  {
    var e := Incident(g.edges, x)[0];
    assert e in g.edges;
    var k :| 0 <= k < |g.edges| && g.edges[k] == e;
  }

  /** Castle i and its partner o each with one road: joining i to what the
      nearest-castle search outside the pair returns either adds an edge pass 3
      adds or, when the search found nothing, changes nothing. */
  lemma PairFits(r: CastleGraph, i: nat, o: nat, excl: set<nat>, b: nat)
    requires i < |r.values| && Degree(r, i) == 1 && o == Partner(r, i) && Degree(r, o) == 1
    requires excl == {i, o}
    requires (exists j :: 0 <= j < |r.values| && j !in excl) ==> NearestTo(r, i, excl, b)
    requires (forall j :: 0 <= j < |r.values| ==> j in excl) ==> b == i
    ensures !Linked(r, i, b) ==> Fits(r, Edge(i, b), Pair)
    ensures !Linked(r, i, b) <==> b != i && b != o
    ensures |r.values| >= 3 ==> b != i && b != o
  {
    OnlyPartnerLinked(r, i, b);
    FirstRoadLinksSelf(r, i);
    if |r.values| >= 3 {
      var c := if i != 0 && o != 0 then 0 else if i != 1 && o != 1 then 1 else 2;
      assert c !in excl;
    }
    if b == o {
      assert Linked(r, i, o) by {
        var e := Incident(r.edges, i)[0];
        assert e in r.edges && Joins(e, i, o);
        var k :| 0 <= k < |r.edges| && r.edges[k] == e;
      }
    }
  }

  /** Pass 3: every new edge is one pass 3 adds; with three or more castles,
      every castle that had a road is afterwards not half of an isolated pair. */
  method LinkPairs(g: CastleGraph) returns (r: CastleGraph)
    requires g.Wf()
    ensures r.Wf() && AddedBy(r, g, Pair)
    ensures |g.values| >= 3 ==> forall u :: 0 <= u < |g.values| && Degree(g, u) >= 1 ==> Settled(r, u)
  {
    r := g;
    var i := 0;
    while i < |g.values|
      invariant 0 <= i <= |g.values|
      invariant r.Wf() && AddedBy(r, g, Pair) && |r.values| == |g.values|
      invariant SettledBelow(r, g, i)
    {
      r := PairStep(g, r, i);
      i := i + 1;
    }
  }

  /** Pass 3 at castle i: one half of an isolated pair gets a road to its
      nearest castle outside the pair. */
  method PairStep(g: CastleGraph, r: CastleGraph, i: nat) returns (r': CastleGraph)
    requires r.Wf() && AddedBy(r, g, Pair) && i < |r.values| == |g.values|
    requires SettledBelow(r, g, i)
    ensures r'.Wf() && AddedBy(r', g, Pair) && |r'.values| == |g.values|
    ensures SettledBelow(r', g, i + 1)
  {
    r' := r;
    DegreeAtLeast(r, g, i);
    if Degree(r, i) == 1 {
      var o := Partner(r, i);
      PartnerHasRoad(r, i);
      if Degree(r, o) == 1 {
        r' := PairLink(g, r, i, o);
      }
    }
    SettledBelowNext(r', g, i);
  }

  lemma SettledBelowNext(r: CastleGraph, g: CastleGraph, i: nat)
    requires SettledBelow(r, g, i)
    requires |g.values| >= 3 && Degree(g, i) >= 1 ==> Settled(r, i)
    ensures SettledBelow(r, g, i + 1)
  {
  }

  /** The partner of a castle with a road has a road itself. */
  lemma PartnerHasRoad(g: CastleGraph, x: nat)
    requires Degree(g, x) >= 1
    ensures Degree(g, Partner(g, x)) >= 1
  {
    var e := Incident(g.edges, x)[0];
    assert e in Incident(g.edges, Partner(g, x));
  }

  /** Castle i and its partner o each have one road: join i to the nearest
      castle outside the pair. */
  method PairLink(g: CastleGraph, r: CastleGraph, i: nat, o: nat) returns (r': CastleGraph)
    requires r.Wf() && AddedBy(r, g, Pair) && i < |r.values| == |g.values|
    requires SettledBelow(r, g, i)
    requires Degree(r, i) == 1 && o == Partner(r, i) && Degree(r, o) == 1
    ensures r'.Wf() && AddedBy(r', g, Pair) && |r'.values| == |g.values|
    ensures SettledBelow(r', g, i) && (|g.values| >= 3 ==> Degree(r', i) >= 2)
  {
    var b := Nearest(r, i, {i, o}, i);
    PairFits(r, i, o, {i, o}, b);
    AddEdgeAdded(r, i, b, Pair);
    r' := AddEdge(r, i, b).0;
    if b != i && b != o {
      LastPrefix(r', r, i, b);
    }
    SettledBelowGrows(r', r, g, i);
    AddedByTrans(r', r, g, Pair);
  }

  // ---------------------------------------------------------------------
  // Pass 4 (src/game/map/GameMap.java:227-283)

  /** From a node the start reaches, whatever it reaches is reachable too. */
  lemma ReachOnward(g: CastleGraph, i: nat, x: nat, b: nat)
    requires Connectivity.Discoverable(g, i, x) && b < |g.values|
    ensures Reachable(g, x, b) ==> Connectivity.Discoverable(g, i, b)
  {
    if Reachable(g, x, b) {
      ReachableTrans(g, i, x, b);
    }
  }

  lemma LinkedReach(g: CastleGraph, x: nat, b: nat)
    requires x < |g.values| && b < |g.values|
    ensures Linked(g, x, b) ==> Reachable(g, x, b)
  {
    ReachableRefl(g, x);
    if Linked(g, x, b) && x != b {
      var k :| 0 <= k < |g.edges| && Joins(g.edges[k], x, b);
      assert Adjacent(g, x, b);
      ReachableStep(g, x, x, b);
    }
  }

  lemma OutsiderExists(s: seq<nat>, n: nat)
    requires NoDup(s) && (forall v :: v in s ==> v < n) && |s| < n
    ensures exists j :: 0 <= j < n && j !in Elems(s)
  {
    NoDupBelow(s, n);
    assert Elems(s) <= Below(n);
    var j :| j in Below(n) && j !in Elems(s);
  }

  /** One merge for the component `found` of castle i: the nearest outsider is
      searched from castle m of the map (not from the m-th member), and the m-th
      member is joined to it. */
  method MergeOnce(g: CastleGraph, i: nat, found: seq<nat>, m: nat) returns (r: CastleGraph)
    requires g.Wf() && i < |g.values| && NoDup(found)
    requires forall v :: v in found <==> Connectivity.Discoverable(g, i, v)
    requires m < |found| < |g.values|
    ensures r.Wf() && AddedBy(r, g, Merge) && |r.edges| == |g.edges| + 1
    ensures r.edges[|g.edges|].a == found[m] && r.edges[|g.edges|].b !in found
    ensures NearestTo(g, m, Elems(found), r.edges[|g.edges|].b)
  {
    var x := found[m];
    assert Connectivity.Discoverable(g, i, x);
    OutsiderExists(found, |g.values|);
    var b := Nearest(g, m, Elems(found), m);
    ReachOnward(g, i, x, b);
    LinkedReach(g, x, b);
    AddEdgeAdded(g, x, b, Merge);
    r := AddEdge(g, x, b).0;
    LastPrefix(r, g, x, b);
  }

  /** Every castle can be reached from u. */
  ghost predicate Spans(g: CastleGraph, u: nat) {
    forall v :: 0 <= v < |g.values| ==> Reachable(g, u, v)
  }

  /** Some castle that `res` does not hold can be reached from u. */
  ghost predicate Unfinished(g: CastleGraph, u: nat, res: seq<nat>) {
    exists w :: 0 <= w < |g.values| && w !in res && Reachable(g, u, w)
  }

  /** The invariant of pass 4: every component short of the whole map still
      holds a castle the loop has not collected into `res`. */
  ghost predicate MergeInv(g: CastleGraph, res: seq<nat>) {
    forall u :: 0 <= u < |g.values| ==> Spans(g, u) || Unfinished(g, u, res)
  }

  lemma MergeInvStart(g: CastleGraph)
    ensures MergeInv(g, [])
  {
    forall u | 0 <= u < |g.values| ensures Unfinished(g, u, []) {
      ReachableRefl(g, u);
    }
  }

  /** Nothing outside the component of i reaches into it. */
  lemma ReachBack(g: CastleGraph, i: nat, found: seq<nat>, u: nat, w: nat)
    requires forall v :: v in found <==> Connectivity.Discoverable(g, i, v)
    requires u < |g.values|
    ensures Reachable(g, u, w) && w in found ==> u in found
  {
    if Reachable(g, u, w) && w in found {
      ReachableSym(g, u, w);
      ReachableTrans(g, i, w, u);
    }
  }

  lemma WithinComponent(g: CastleGraph, i: nat, found: seq<nat>, u: nat, x: nat)
    requires forall v :: v in found <==> Connectivity.Discoverable(g, i, v)
    requires u in found && x in found
    ensures Reachable(g, u, x)
  {
    ReachableSym(g, i, u);
    ReachableTrans(g, u, i, x);
  }

  /** A component that is the whole map: every castle spans it. */
  lemma MergeInvWhole(g: CastleGraph, res: seq<nat>, i: nat, found: seq<nat>)
    requires forall v :: v in found <==> Connectivity.Discoverable(g, i, v)
    requires forall v :: 0 <= v < |g.values| ==> v in found
    ensures MergeInv(g, res)
  {
    forall u | 0 <= u < |g.values| ensures Spans(g, u) {
      forall v | 0 <= v < |g.values| ensures Reachable(g, u, v) {
        WithinComponent(g, i, found, u, v);
      }
    }
  }

  /** The castles that pass 4 appends next. */
  ghost predicate Bridges(g': CastleGraph, g: CastleGraph, found: seq<nat>) {
    && g'.Wf() && Extends(g', g) && |g'.edges| == |g.edges| + 1
    && g'.edges[|g.edges|].a in found && g'.edges[|g.edges|].b !in found
  }

  /** A castle outside the merged component keeps its unfinished witness. */
  lemma OutsideKept(g': CastleGraph, g: CastleGraph, res: seq<nat>, i: nat, found: seq<nat>, u: nat)
    requires forall v :: v in found <==> Connectivity.Discoverable(g, i, v)
    requires Extends(g', g) && u < |g.values| && u !in found && Unfinished(g, u, res)
    ensures Unfinished(g', u, res + found)
  {
    var w :| 0 <= w < |g.values| && w !in res && Reachable(g, u, w);
    ReachBack(g, i, found, u, w);
    ReachableMono(g', g, u, w);
    assert w !in res + found;
  }

  /** A castle of the merged component reaches, across the new road, a castle
      that the component it joins has not had collected. */
  lemma InsideMerged(g': CastleGraph, g: CastleGraph, res: seq<nat>, i: nat, found: seq<nat>, u: nat)
    requires MergeInv(g, res) && Bridges(g', g, found)
    requires forall v :: v in found <==> Connectivity.Discoverable(g, i, v)
    requires u in found
    ensures Unfinished(g', u, res + found)
  {
    var e := g'.edges[|g.edges|];
    var x, b := e.a, e.b;
    assert e in g'.edges;
    assert b < |g.values|;
    ReachBack(g, i, found, b, x);
    assert !Reachable(g, b, x);
    assert !Spans(g, b);
    var w :| 0 <= w < |g.values| && w !in res && Reachable(g, b, w);
    ReachBack(g, i, found, b, w);
    WithinComponent(g, i, found, u, x);
    ReachableMono(g', g, u, x);
    ReachableMono(g', g, b, w);
    assert Adjacent(g', x, b) by { assert Edge(x, b) == e; }
    ReachableStep(g', u, x, b);
    ReachableTrans(g', u, b, w);
    assert w !in res + found;
  }

  /** One merge keeps the invariant, with the component now collected. */
  lemma MergeKeeps(g': CastleGraph, g: CastleGraph, res: seq<nat>, i: nat, found: seq<nat>)
    requires MergeInv(g, res) && Bridges(g', g, found)
    requires forall v :: v in found <==> Connectivity.Discoverable(g, i, v)
    ensures MergeInv(g', res + found)
  {
    forall u | 0 <= u < |g'.values| ensures Spans(g', u) || Unfinished(g', u, res + found) {
      if Spans(g, u) {
        forall v | 0 <= v < |g.values| ensures Reachable(g', u, v) {
          ReachableMono(g', g, u, v);
        }
      } else if u in found {
        InsideMerged(g', g, res, i, found, u);
      } else {
        OutsideKept(g', g, res, i, found, u);
      }
    }
  }

  /** Once every castle is collected, every castle spans the map. */
  lemma MergeDone(g: CastleGraph, res: seq<nat>)
    requires MergeInv(g, res) && forall j :: 0 <= j < |g.values| ==> j in res
    ensures forall u :: 0 <= u < |g.values| ==> Spans(g, u)
  {
  }

  /** Pass 4 (src/game/map/GameMap.java:227-283): each new edge joins two
      castles that were not yet connected, and afterwards the road network is
      connected. The component search of a castle without roads finds nothing,
      and drawing an index from an empty range fails; castles all having roads
      rules that out. */
  method MergeComponents(g: CastleGraph, pick: nat -> nat) returns (r: Result<CastleGraph>)
    requires g.Wf()
    ensures r.Err? ==> r.fault == IllegalArgument
    ensures (forall u :: 0 <= u < |g.values| ==> Degree(g, u) >= 1) ==> r.Ok?
    ensures r.Ok? ==> r.value.Wf() && AddedBy(r.value, g, Merge)
    ensures r.Ok? ==> forall u :: 0 <= u < |g.values| ==> Spans(r.value, u)
  {
    var cur := g;
    var seen: seq<nat> := [];
    var draws := 0;
    var i := 0;
    MergeInvStart(g);
    while i < |g.values|
      invariant 0 <= i <= |g.values|
      invariant cur.Wf() && AddedBy(cur, g, Merge)
      invariant MergeInv(cur, seen)
      invariant forall j :: 0 <= j < i ==> j in seen
    {
      if i !in seen {
        var found := Connectivity.Explore(cur, i);
        ReachableRefl(cur, i);
        DegreeAtLeast(cur, g, i);
        assert Degree(g, i) >= 1 ==> Connectivity.Discoverable(cur, i, i);
        ghost var res := seen;
        seen := seen + found;
        if |found| < |g.values| {
          if |found| == 0 {
            return Err(IllegalArgument);
          }
          assert Connectivity.Discoverable(cur, i, found[0]);
          var m := Draw(pick, draws, |found|);
          draws := draws + 1;
          var next := MergeOnce(cur, i, found, m);
          MergeKeeps(next, cur, res, i, found);
          AddedByTrans(next, cur, g, Merge);
          cur := next;
        } else {
          FoundAll(cur, i, found);
          MergeInvWhole(cur, seen, i, found);
        }
      }
      i := i + 1;
    }
    MergeDone(cur, seen);
    return Ok(cur);
  }

  /** A component as large as the map holds every castle. */
  lemma FoundAll(g: CastleGraph, i: nat, found: seq<nat>)
    requires NoDup(found) && |found| >= |g.values|
    requires forall v :: v in found <==> Connectivity.Discoverable(g, i, v)
    ensures forall v :: 0 <= v < |g.values| ==> v in found
  {
    NoDupBelow(found, |g.values|);
    assert Elems(found) == Below(|g.values|);
    forall v | 0 <= v < |g.values| ensures v in found {
      assert v in Elems(found);
    }
  }

  // ---------------------------------------------------------------------

  /** `generateEdges`: the four passes in order. The draw in pass 4 never fails,
      since pass 2 leaves every castle with a road; afterwards every castle has
      a road, every castle reaches every other, and, on maps of three or more
      castles, none is half of an isolated pair. */
  method GenerateEdges(g: CastleGraph, width: int, pick: nat -> nat) returns (r: Result<CastleGraph>)
    requires g.Wf()
    ensures r.Ok?
    ensures r.value.Wf() && Extends(r.value, g)
    ensures forall u :: 0 <= u < |g.values| ==> Degree(r.value, u) >= 1
    ensures forall u :: 0 <= u < |g.values| ==> Spans(r.value, u)
    ensures |g.values| > 0 ==> Connectivity.AllReachableFromFirst(r.value)
    ensures |g.values| >= 3 ==> forall u :: 0 <= u < |g.values| ==> Settled(r.value, u)
  {
    var g1 := LinkNear(g, MaxDistance(width));
    var g2 := LinkIsolated(g1);
    var g3 := LinkPairs(g2);
    RoadsKept(g3, g2, |g.values|);
    r := MergeComponents(g3, pick);
    RoadsKept(r.value, g3, |g.values|);
    SettledBelowGrows(r.value, g3, g2, |g.values|);
    ExtendsTrans(g2, g1, g);
    ExtendsTrans(g3, g2, g);
    ExtendsTrans(r.value, g3, g);
    if |g.values| > 0 {
      SpansConnected(r.value);
    }
  }

  /** A map spanned from its first castle, which has a road, passes the check
      of `allNodesConnected`. */
  lemma SpansConnected(g: CastleGraph)
    requires |g.values| > 0 && Degree(g, 0) >= 1 && Spans(g, 0)
    ensures Connectivity.AllReachableFromFirst(g)
  {
  }
}

=== FILE: geometry.dfy ===
/** Integer map positions (java.awt.Point), squared distances and the Java
    conversions from double to int that the map code relies on. */
module Geometry {

  datatype Point = Point(x: int, y: int)

  /** The square of the Euclidean distance `Point.distance` takes the root of. */
  function DistSq(p: Point, q: Point): (r: nat)
    ensures r == 0 <==> p == q
  {
    var dx := p.x - q.x;
    var dy := p.y - q.y;
    SquareNonNeg(dx);
    SquareNonNeg(dy);
    SquareZero(dx);
    SquareZero(dy);
    dx * dx + dy * dy
  }

  lemma DistSqSymmetric(p: Point, q: Point)
    ensures DistSq(p, q) == DistSq(q, p)
  {
  }

  lemma SquareNonNeg(a: int)
    ensures a * a >= 0
  {
  }

  lemma SquareZero(a: int)
    ensures a * a == 0 <==> a == 0
  {
  }

  /** For a non-negative bound m, `distance(p, q) < m` holds exactly when the
      squared distance is below m². */
  predicate Closer(p: Point, q: Point, m: nat) {
    DistSq(p, q) < m * m
  }

  /** Java's `(int)` cast of a (finite) double: truncation toward zero. */
  function Trunc(v: real): (r: int)
    ensures v >= 0.0 ==> r as real <= v < r as real + 1.0 && r >= 0
    ensures v < 0.0 ==> r as real - 1.0 < v <= r as real && r <= 0
  {
    if v >= 0.0 then v.Floor else -((-v).Floor)
  }
}

=== FILE: goals.dfy ===
/** Win conditions (src/game/goals/PointGoal.java, GeneralGoal.java,
    MonopolGoal.java). The parts of the game a goal looks at are the round
    number, the players in game order (points and troops still to place) and
    the kingdoms (owner and the troops in each castle). A player is named by
    its position in the player list. */
module Goals {
  import opened Util

  datatype Player = Player(points: int, troops: int)

  /** A kingdom as the Monopol goal sees it: its owner, if any, and the troop
      count of each of its castles. */
  datatype Realm = Realm(owner: Option<nat>, troops: seq<int>)

  datatype Game = Game(round: int, players: seq<Player>, realms: seq<Realm>)

  datatype Goal = PointGoal | GeneralGoal | MonopolGoal

  const WinPoints: int := 500
  const MaxTroops: int := 75
  /** Troops per castle the Monopol goal asks for. */
  const HoldTroops: int := 2

  /** Position of the first value at least `bar`, if any. */
  function FirstReaching(vs: seq<int>, bar: int): (r: Option<nat>)
    ensures r.None? <==> forall i :: 0 <= i < |vs| ==> vs[i] < bar
    ensures r.Some? ==> r.value < |vs| && vs[r.value] >= bar
                        && forall i :: 0 <= i < r.value ==> vs[i] < bar
  {
    if |vs| == 0 then None
    else if vs[0] >= bar then Some(0)
    else
      match FirstReaching(vs[1..], bar)
      case None => None
      case Some(i) => Some(i + 1)
  }

  function Points(ps: seq<Player>): (vs: seq<int>)
    ensures |vs| == |ps| && forall i :: 0 <= i < |ps| ==> vs[i] == ps[i].points
  {
    seq(|ps|, i requires 0 <= i < |ps| => ps[i].points)
  }

  function Troops(ps: seq<Player>): (vs: seq<int>)
    ensures |vs| == |ps| && forall i :: 0 <= i < |ps| ==> vs[i] == ps[i].troops
  {
    seq(|ps|, i requires 0 <= i < |ps| => ps[i].troops)
  }

  /** `PointGoal.getWinner` (src/game/goals/PointGoal.java:21-33): from round 2
      on, the first player with at least 500 points. */
  function PointWinner(g: Game): (w: Option<nat>)
    ensures g.round < 2 ==> w.None?
    ensures w.Some? ==> w.value < |g.players| && g.players[w.value].points >= WinPoints
                        && forall i :: 0 <= i < w.value ==> g.players[i].points < WinPoints
    ensures g.round >= 2 && w.None? ==> forall i :: 0 <= i < |g.players| ==> g.players[i].points < WinPoints
  {
    if g.round < 2 then None else FirstReaching(Points(g.players), WinPoints)
  }

  /** `GeneralGoal.getWinner` (src/game/goals/GeneralGoal.java:21-32): from round
      2 on, the first player with at least 75 troops left. */
  function GeneralWinner(g: Game): (w: Option<nat>)
    ensures g.round < 2 ==> w.None?
    ensures w.Some? ==> w.value < |g.players| && g.players[w.value].troops >= MaxTroops
                        && forall i :: 0 <= i < w.value ==> g.players[i].troops < MaxTroops
    ensures g.round >= 2 && w.None? ==> forall i :: 0 <= i < |g.players| ==> g.players[i].troops < MaxTroops
  {
    if g.round < 2 then None else FirstReaching(Troops(g.players), MaxTroops)
  }

  /** `MonopolGoal.getWinner` as written (src/game/goals/MonopolGoal.java:21-36):
      the `break` leaves only the castle loop, so from round 2 on the winner is
      the owner of the first kingdom, whatever its troops. */
  function MonopolWinnerAsWritten(g: Game): (w: Option<nat>)
    ensures g.round < 2 || |g.realms| == 0 ==> w.None?
    ensures w.Some? ==> g.realms[0].owner == w
  {
    if g.round < 2 || |g.realms| == 0 then None else g.realms[0].owner
  }

  /** Every castle of the kingdom holds at least two troops. */
  predicate Held(r: Realm) {
    forall i :: 0 <= i < |r.troops| ==> r.troops[i] >= HoldTroops
  }

  /** A kingdom that wins the Monopol goal: owned and held everywhere. */
  predicate Occupied(r: Realm) {
    r.owner.Some? && Held(r)
  }

  /** Position of the first occupied kingdom, if any. */
  function FirstOccupied(rs: seq<Realm>): (k: Option<nat>)
    ensures k.None? <==> forall i :: 0 <= i < |rs| ==> !Occupied(rs[i])
    ensures k.Some? ==> k.value < |rs| && Occupied(rs[k.value])
                        && forall i :: 0 <= i < k.value ==> !Occupied(rs[i])
  {
    if |rs| == 0 then None
    else if Occupied(rs[0]) then Some(0)
    else
      match FirstOccupied(rs[1..])
      case None => None
      case Some(i) => Some(i + 1)
  }

  /** The Monopol goal as its description states it: from round 2 on, the owner
      of the first kingdom whose every castle holds at least two troops. */
  function MonopolWinner(g: Game): (w: Option<nat>)
    ensures g.round < 2 ==> w.None?
    ensures w.Some? ==> exists k :: && 0 <= k < |g.realms| && Occupied(g.realms[k]) && g.realms[k].owner == w
                                    && forall j :: 0 <= j < k ==> !Occupied(g.realms[j])
    ensures g.round >= 2 && w.None? ==> forall k :: 0 <= k < |g.realms| ==> !Occupied(g.realms[k])
  {
    if g.round < 2 then None
    else
      match FirstOccupied(g.realms)
      case None => None
      case Some(k) => g.realms[k].owner
  }

  /** The two agree whenever the first kingdom is occupied. */
  lemma MonopolAgreesWhenFirstHeld(g: Game)
    requires |g.realms| > 0 && Occupied(g.realms[0])
    ensures MonopolWinnerAsWritten(g) == MonopolWinner(g)
  {
  }

  /** As written, an owner with a single troop in its only castle wins. */
  lemma MonopolAsWrittenIgnoresTroops()
    ensures var g := Game(2, [Player(0, 0)], [Realm(Some(0), [1])]);
            MonopolWinnerAsWritten(g) == Some(0) && MonopolWinner(g) == None
  {
    var g := Game(2, [Player(0, 0)], [Realm(Some(0), [1])]);
    assert !Held(g.realms[0]) by {
      assert g.realms[0].troops[0] < HoldTroops;
    }
  }

  /** `getWinner` of each goal, as written; the Monopol goal's winner is the
      first kingdom's owner. */
  function Winner(goal: Goal, g: Game): (w: Option<nat>)
    ensures g.round < 2 ==> w.None?
    ensures goal == PointGoal ==> w == PointWinner(g)
    ensures goal == GeneralGoal ==> w == GeneralWinner(g)
    ensures goal == MonopolGoal ==> w == MonopolWinnerAsWritten(g)
  {
    match goal
    case PointGoal => PointWinner(g)
    case GeneralGoal => GeneralWinner(g)
    case MonopolGoal => MonopolWinnerAsWritten(g)
  }

  /** As written, the Monopol goal is completed, and every other player has
      lost, as soon as someone owns the first kingdom, whatever its troops. */
  lemma MonopolCompletedByOwnership(g: Game, p: nat)
    requires g.round >= 2 && |g.realms| > 0 && g.realms[0].owner.Some?
    ensures IsCompleted(MonopolGoal, g)
    ensures HasLost(MonopolGoal, g, p) <==> p != g.realms[0].owner.value
  {
  }

  /** `isCompleted`: a winner exists. */
  function IsCompleted(goal: Goal, g: Game): (b: bool)
    ensures b <==> Winner(goal, g).Some?
  {
    Winner(goal, g) != None
  }

  /** `hasLost(p)`: false before round 2, afterwards a winner exists and it is
      somebody else. */
  function HasLost(goal: Goal, g: Game, p: nat): (b: bool)
    ensures g.round < 2 ==> !b
    ensures b <==> Winner(goal, g).Some? && Winner(goal, g).value != p
  {
    if g.round < 2 then false
    else Winner(goal, g) != Some(p) && Winner(goal, g) != None
  }

  /** Once a goal is completed, exactly the players other than the winner have
      lost; before that nobody has. */
  lemma LosersAreAllButWinner(goal: Goal, g: Game, p: nat)
    ensures !IsCompleted(goal, g) ==> !HasLost(goal, g, p)
    ensures IsCompleted(goal, g) ==> (HasLost(goal, g, p) <==> Some(p) != Winner(goal, g))
  {
  }

  /** Only the first player over the bar can win: raising a later player's
      points does not change the winner of the point goal. */
  lemma {:induction false} LaterPlayersDoNotMatter(g: Game, i: nat, pts: int)
    requires PointWinner(g).Some? && PointWinner(g).value < i < |g.players|
    ensures PointWinner(g.(players := g.players[i := Player(pts, g.players[i].troops)])) == PointWinner(g)
  {
    var g' := g.(players := g.players[i := Player(pts, g.players[i].troops)]);
    var w := PointWinner(g).value;
    FirstReachingUpTo(Points(g.players), Points(g'.players), WinPoints, w);
  }

  /** Two sequences that agree up to and including the first value over the bar
      of the one have the same first value over the bar. */
  lemma {:induction false} FirstReachingUpTo(vs: seq<int>, ws: seq<int>, bar: int, w: nat)
    requires FirstReaching(vs, bar) == Some(w) && w < |ws|
    requires forall i :: 0 <= i <= w ==> ws[i] == vs[i]
    ensures FirstReaching(ws, bar) == Some(w)
  {
    if w > 0 {
      assert vs[0] < bar;
      FirstReachingUpTo(vs[1..], ws[1..], bar, w - 1);
    }
  }
}

=== FILE: graph.dfy ===
/** The generic graph store of src/base/Graph.java.

    A node is identified by its position in the insertion-ordered node list and
    carries one payload; `values[i]` is the payload of node i. An edge is the
    pair of its two endpoint indices. Java edges are objects compared by
    reference; here they are values, which is equivalent as long as no unordered
    pair is stored twice, and `AddEdge` never stores a pair twice. */
module Graphs {
  import opened Util

  datatype Edge = Edge(a: nat, b: nat)

  /** `Edge.contains`: x is one of the endpoints. */
  predicate Touches(e: Edge, x: nat) {
    e.a == x || e.b == x
  }

  /** Both x and y are endpoints (for x == y: x is an endpoint). */
  predicate Joins(e: Edge, x: nat, y: nat) {
    Touches(e, x) && Touches(e, y)
  }

  /** `Edge.getOtherNode`: the endpoint opposite to x. */
  function Other(e: Edge, x: nat): (r: nat)
    requires Touches(e, x)
    ensures Touches(e, r)
    ensures x == e.a ==> r == e.b
    ensures x == e.b && x != e.a ==> r == e.a
  {
    if e.a == x then e.b else e.a
  }

  predicate SamePair(e: Edge, f: Edge) {
    (e.a == f.a && e.b == f.b) || (e.a == f.b && e.b == f.a)
  }

  /** No unordered pair of nodes is joined by two stored edges. */
  predicate NoDupPairs(edges: seq<Edge>) {
    forall i, j :: 0 <= i < j < |edges| ==> !SamePair(edges[i], edges[j])
  }

  datatype Graph<T> = Graph(values: seq<T>, edges: seq<Edge>) {
    /** Every edge joins nodes owned by this graph. */
    predicate Wf() {
      forall e :: e in edges ==> e.a < |values| && e.b < |values|
    }
  }

  /** The new, empty graph of the constructor. */
  function EmptyGraph<T>(): (g: Graph<T>)
    ensures |g.values| == 0 && |g.edges| == 0 && g.Wf()
  {
    Graph([], [])
  }

  /** `addNode`: append one node carrying `v`; returns the graph and the new node. */
  function AddNode<T>(g: Graph<T>, v: T): (r: (Graph<T>, nat))
    ensures r.1 == |g.values| && |r.0.values| == |g.values| + 1
    ensures r.0.values[r.1] == v
    ensures r.0.values[..|g.values|] == g.values
    ensures r.0.edges == g.edges
    ensures g.Wf() ==> r.0.Wf()
  {
    (Graph(g.values + [v], g.edges), |g.values|)
  }

  /** `getAllValues`: the payloads, one per node, in node order. */
  function AllValues<T>(g: Graph<T>): (r: seq<T>)
    ensures |r| == |g.values|
    ensures forall i :: 0 <= i < |g.values| ==> r[i] == g.values[i]
  {
    g.values
  }

  /** The values list grows with `addNode`, one entry per node added. */
  lemma AllValuesAddNode<T>(g: Graph<T>, v: T)
    ensures AllValues(AddNode(g, v).0) == AllValues(g) + [v]
  {
  }

  /** Every listed value leads `getNode` to a node holding it, no later than
      the value's own position. */
  lemma AllValuesFound<T>(g: Graph<T>, i: nat)
    requires i < |g.values|
    ensures GetNode(g, AllValues(g)[i]).Some? && GetNode(g, AllValues(g)[i]).value <= i
  {
    assert AllValues(g)[i] in g.values;
  }

  /** `getNode`: the first node whose payload equals `v`, or None. */
  function GetNode<T(==)>(g: Graph<T>, v: T): (r: Option<nat>)
    ensures r.Some? ==> r.value < |g.values| && g.values[r.value] == v
    ensures r.Some? ==> forall j :: 0 <= j < r.value ==> g.values[j] != v
    ensures r.None? <==> v !in g.values
  {
    FirstIndex(g.values, x => x == v)
  }

  /** `getEdges(node)`: the edges touching x, in edge-list order. */
  function Incident(edges: seq<Edge>, x: nat): (r: seq<Edge>)
    ensures forall e :: e in r <==> e in edges && Touches(e, x)
    ensures |r| <= |edges|
  {
    if |edges| == 0 then []
    else (if Touches(edges[0], x) then [edges[0]] else []) + Incident(edges[1..], x)
  }

  /** Order is kept: the incident edges of a concatenation are those of each part. */
  lemma {:induction false} IncidentAppend(s: seq<Edge>, t: seq<Edge>, x: nat)
    ensures Incident(s + t, x) == Incident(s, x) + Incident(t, x)
  {
    if |s| > 0 {
      assert (s + t)[1..] == s[1..] + t;
      IncidentAppend(s[1..], t, x);
    } else {
      assert s + t == t;
    }
  }

  function Degree<T>(g: Graph<T>, x: nat): nat {
    |Incident(g.edges, x)|
  }

  /** Appending edges never lowers a degree. */
  lemma DegreeGrows<T>(g: Graph<T>, extra: seq<Edge>, x: nat)
    ensures Degree(Graph(g.values, g.edges + extra), x) >= Degree(g, x)
    ensures Degree(Graph(g.values, g.edges + extra), x) == Degree(g, x) + |Incident(extra, x)|
  {
    IncidentAppend(g.edges, extra, x);
  }

  /** `getEdge(a, b)`: the first edge containing both nodes, or None. */
  function GetEdge<T>(g: Graph<T>, x: nat, y: nat): (r: Option<Edge>)
    ensures r.None? <==> forall i :: 0 <= i < |g.edges| ==> !Joins(g.edges[i], x, y)
    ensures r.Some? ==> exists i :: 0 <= i < |g.edges| && g.edges[i] == r.value
                                    && Joins(g.edges[i], x, y)
                                    && forall j :: 0 <= j < i ==> !Joins(g.edges[j], x, y)
  {
    match FirstIndex(g.edges, e => Joins(e, x, y))
    case None => None
    case Some(i) => Some(g.edges[i])
  }

  /** `addEdge(a, b)`: the existing edge between a and b if there is one (the
      graph unchanged), otherwise a new edge (a, b) appended to the edge list. */
  function AddEdge<T>(g: Graph<T>, x: nat, y: nat): (r: (Graph<T>, Edge))
    ensures (exists i :: 0 <= i < |g.edges| && Joins(g.edges[i], x, y)) ==>
              r.0 == g && r.1 in g.edges && Joins(r.1, x, y)
    ensures (forall i :: 0 <= i < |g.edges| ==> !Joins(g.edges[i], x, y)) ==>
              r.0 == Graph(g.values, g.edges + [Edge(x, y)]) && r.1 == Edge(x, y)
    ensures g.Wf() && x < |g.values| && y < |g.values| ==> r.0.Wf()
  {
    match GetEdge(g, x, y)
    case Some(e) => (g, e)
    case None => (Graph(g.values, g.edges + [Edge(x, y)]), Edge(x, y))
  }

  /** Starting from an edge list with no repeated pair, `addEdge` keeps it so. */
  lemma AddEdgeKeepsNoDup<T>(g: Graph<T>, x: nat, y: nat)
    requires NoDupPairs(g.edges)
    ensures NoDupPairs(AddEdge(g, x, y).0.edges)
  {
    var g' := AddEdge(g, x, y).0;
    if g' != g {
      assert g'.edges == g.edges + [Edge(x, y)];
      forall i, j | 0 <= i < j < |g'.edges|
        ensures !SamePair(g'.edges[i], g'.edges[j])
      {
        if j == |g.edges| {
          assert !Joins(g.edges[i], x, y);
        }
      }
    }
  }

  /** Calling `addEdge` again, with the endpoints in either order, returns the
      same edge and changes nothing. */
  lemma AddEdgeIdempotent<T>(g: Graph<T>, x: nat, y: nat)
    ensures var (g1, e1) := AddEdge(g, x, y);
            AddEdge(g1, x, y) == (g1, e1) && AddEdge(g1, y, x) == (g1, e1)
  {
    var (g1, e1) := AddEdge(g, x, y);
    if exists i :: 0 <= i < |g.edges| && Joins(g.edges[i], x, y) {
      AddEdgeAgain(g, x, y);
    } else {
      AddEdgeAfterNew(g, x, y);
    }
  }

  /** An existing edge is found again from either end. */
  lemma AddEdgeAgain<T>(g: Graph<T>, x: nat, y: nat)
    requires exists i :: 0 <= i < |g.edges| && Joins(g.edges[i], x, y)
    ensures AddEdge(g, x, y) == (g, AddEdge(g, x, y).1)
    ensures AddEdge(g, y, x) == AddEdge(g, x, y)
  {
    assert forall e :: Joins(e, x, y) <==> Joins(e, y, x);
  }

  /** After a new edge is appended, asking for it again finds it. */
  lemma AddEdgeAfterNew<T>(g: Graph<T>, x: nat, y: nat)
    requires forall i :: 0 <= i < |g.edges| ==> !Joins(g.edges[i], x, y)
    ensures var (g1, e1) := AddEdge(g, x, y);
            AddEdge(g1, x, y) == (g1, e1) && AddEdge(g1, y, x) == (g1, e1)
  {
    var (g1, e1) := AddEdge(g, x, y);
    var n := |g.edges|;
    assert g1.edges[n] == Edge(x, y) && Joins(g1.edges[n], x, y) && Joins(g1.edges[n], y, x);
    AddEdgeAgain(g1, x, y);
    assert forall j :: 0 <= j < n ==> g1.edges[j] == g.edges[j];
  }

  /** Some stored edge joins x and y. */
  predicate Linked<T>(g: Graph<T>, x: nat, y: nat) {
    exists i :: 0 <= i < |g.edges| && Joins(g.edges[i], x, y)
  }

  /** g' is g with further edges appended. */
  ghost predicate Extends<T>(g': Graph<T>, g: Graph<T>) {
    g'.values == g.values && |g.edges| <= |g'.edges| && g'.edges[..|g.edges|] == g.edges
  }

  /** The graph as it stood after its first k edges. */
  function Prefix<T>(g: Graph<T>, k: nat): (r: Graph<T>)
    requires k <= |g.edges|
    ensures Extends(g, r) && |r.edges| == k
  {
    Graph(g.values, g.edges[..k])
  }

  lemma ExtendsTrans<T>(g3: Graph<T>, g2: Graph<T>, g1: Graph<T>)
    requires Extends(g3, g2) && Extends(g2, g1)
    ensures Extends(g3, g1)
  {
    assert g3.edges[..|g1.edges|] == g3.edges[..|g2.edges|][..|g1.edges|];
  }

  /** Appending edges keeps every link and never lowers a degree. */
  lemma ExtendsKeeps<T>(g': Graph<T>, g: Graph<T>)
    requires Extends(g', g)
    ensures forall x, y :: Linked(g, x, y) ==> Linked(g', x, y)
    ensures forall x :: Degree(g', x) >= Degree(g, x)
    ensures forall e :: e in g.edges ==> e in g'.edges
  {
    var extra := g'.edges[|g.edges|..];
    assert g'.edges == g.edges + extra;
    forall x ensures Degree(g', x) >= Degree(g, x) {
      DegreeGrows(g, extra, x);
    }
    forall x, y | Linked(g, x, y) ensures Linked(g', x, y) {
      var i :| 0 <= i < |g.edges| && Joins(g.edges[i], x, y);
      assert g'.edges[i] == g.edges[i];
    }
  }

  lemma DegreeAtLeast<T>(g': Graph<T>, g: Graph<T>, x: nat)
    requires Extends(g', g)
    ensures Degree(g', x) >= Degree(g, x)
  {
    assert g'.edges == g.edges + g'.edges[|g.edges|..];
    DegreeGrows(g, g'.edges[|g.edges|..], x);
  }

  lemma AddEdgeExtends<T>(g: Graph<T>, x: nat, y: nat)
    ensures Extends(AddEdge(g, x, y).0, g)
    ensures Linked(AddEdge(g, x, y).0, x, y)
  {
    var g' := AddEdge(g, x, y).0;
    if !Linked(g, x, y) {
      assert g'.edges[|g.edges|] == Edge(x, y);
    }
  }

  // ---------------------------------------------------------------------
  // Reachability: the reference notion `allNodesConnected` is checked against.

  predicate Adjacent<T>(g: Graph<T>, u: nat, v: nat) {
    Edge(u, v) in g.edges || Edge(v, u) in g.edges
  }

  /** A walk: a non-empty list of nodes, each joined to the next by an edge. */
  ghost predicate IsWalk<T>(g: Graph<T>, p: seq<nat>) {
    && |p| > 0
    && (forall i :: 0 <= i < |p| ==> p[i] < |g.values|)
    && (forall i :: 0 <= i < |p| - 1 ==> Adjacent(g, p[i], p[i + 1]))
  }

  ghost predicate Reachable<T>(g: Graph<T>, s: nat, t: nat) {
    exists p :: IsWalk(g, p) && p[0] == s && p[|p| - 1] == t
  }

  lemma ReachableRefl<T>(g: Graph<T>, s: nat)
    requires s < |g.values|
    ensures Reachable(g, s, s)
  {
    assert IsWalk(g, [s]);
  }

  lemma ReachableStep<T>(g: Graph<T>, s: nat, u: nat, v: nat)
    requires Reachable(g, s, u) && Adjacent(g, u, v) && v < |g.values|
    ensures Reachable(g, s, v)
  {
    var p :| IsWalk(g, p) && p[0] == s && p[|p| - 1] == u;
    var q := p + [v];
    assert q[|q| - 1] == v && q[0] == s;
    assert IsWalk(g, q);
  }

  lemma ReachableTrans<T>(g: Graph<T>, s: nat, u: nat, v: nat)
    requires Reachable(g, s, u) && Reachable(g, u, v)
    ensures Reachable(g, s, v)
  {
    var p :| IsWalk(g, p) && p[0] == s && p[|p| - 1] == u;
    var q :| IsWalk(g, q) && q[0] == u && q[|q| - 1] == v;
    var w := p + q[1..];
    assert w[0] == s && w[|w| - 1] == v;
    forall i | 0 <= i < |w| - 1 ensures Adjacent(g, w[i], w[i + 1]) {
      if i < |p| - 1 {
        assert w[i] == p[i] && w[i + 1] == p[i + 1];
      } else if i == |p| - 1 {
        assert w[i] == q[0] && w[i + 1] == q[1];
      } else {
        assert w[i] == q[i - |p| + 1] && w[i + 1] == q[i - |p| + 2];
      }
    }
    assert IsWalk(g, w);
  }

  /** Edges have no direction: a walk read backwards is a walk. */
  lemma ReachableSym<T>(g: Graph<T>, s: nat, t: nat)
    requires Reachable(g, s, t)
    ensures Reachable(g, t, s)
  {
    var p :| IsWalk(g, p) && p[0] == s && p[|p| - 1] == t;
    var q := seq(|p|, i requires 0 <= i < |p| => p[|p| - 1 - i]);
    forall i | 0 <= i < |q| - 1 ensures Adjacent(g, q[i], q[i + 1]) {
      var j := |p| - 2 - i;
      assert Adjacent(g, p[j], p[j + 1]);
    }
    assert IsWalk(g, q) && q[0] == t && q[|q| - 1] == s;
  }

  /** Appending edges keeps every walk. */
  lemma ReachableMono<T>(g': Graph<T>, g: Graph<T>, s: nat, t: nat)
    requires Extends(g', g) && Reachable(g, s, t)
    ensures Reachable(g', s, t)
  {
    ExtendsKeeps(g', g);
    var p :| IsWalk(g, p) && p[0] == s && p[|p| - 1] == t;
    forall i | 0 <= i < |p| - 1 ensures Adjacent(g', p[i], p[i + 1]) {
      assert Adjacent(g, p[i], p[i + 1]);
    }
    assert IsWalk(g', p);
  }

  /** A node set that every edge either avoids or lies wholly inside. */
  ghost predicate Closed<T>(g: Graph<T>, r: set<nat>) {
    forall e :: e in g.edges && (e.a in r || e.b in r) ==> e.a in r && e.b in r
  }

  /** A closed set containing s contains everything reachable from s. */
  lemma ClosedHoldsReach<T>(g: Graph<T>, r: set<nat>, s: nat, t: nat)
    requires Closed(g, r) && s in r && Reachable(g, s, t)
    ensures t in r
  {
    var p :| IsWalk(g, p) && p[0] == s && p[|p| - 1] == t;
    var i := 0;
    while i < |p| - 1
      invariant 0 <= i <= |p| - 1 && p[i] in r
    {
      assert Adjacent(g, p[i], p[i + 1]);
      i := i + 1;
    }
  }
}

=== FILE: joker.dfy ===
/** A player's joker (src/joker/Joker.java): three flags and an owner. The
    setters are modelled as functions returning the updated joker. */
module Jokers {

  /** `reroll`, `used` and `useNow` flags; the owner is a player position. */
  datatype Joker = Joker(reroll: bool, used: bool, useNow: bool, owner: nat)

  /** The constructor (src/joker/Joker.java:7-14): all flags cleared. */
  function NewJoker(owner: nat): (j: Joker)
    ensures !j.reroll && !j.used && !j.useNow && j.owner == owner
  {
    Joker(false, false, false, owner)
  }

  /** `setUsed`: only the `used` flag changes. */
  function SetUsed(j: Joker, b: bool): (r: Joker)
    ensures r.used == b && r.reroll == j.reroll && r.useNow == j.useNow && r.owner == j.owner
  {
    j.(used := b)
  }

  /** `setReroll`: only the `reroll` flag changes. */
  function SetReroll(j: Joker, b: bool): (r: Joker)
    ensures r.reroll == b && r.used == j.used && r.useNow == j.useNow && r.owner == j.owner
  {
    j.(reroll := b)
  }

  /** `setUseNow`: only the `useNow` flag changes. */
  function SetUseNow(j: Joker, b: bool): (r: Joker)
    ensures r.useNow == b && r.reroll == j.reroll && r.used == j.used && r.owner == j.owner
  {
    j.(useNow := b)
  }

  /** Setting a flag to what it already holds changes nothing, and the last
      write to a flag wins. */
  lemma SettersOverwrite(j: Joker, a: bool, b: bool)
    ensures SetUsed(j, j.used) == j && SetReroll(j, j.reroll) == j && SetUseNow(j, j.useNow) == j
    ensures SetUsed(SetUsed(j, a), b) == SetUsed(j, b)
    ensures SetReroll(SetReroll(j, a), b) == SetReroll(j, b)
    ensures SetUseNow(SetUseNow(j, a), b) == SetUseNow(j, b)
  {
  }

  /** Setters of different flags commute. */
  lemma SettersCommute(j: Joker, a: bool, b: bool)
    ensures SetUsed(SetReroll(j, a), b) == SetReroll(SetUsed(j, b), a)
    ensures SetUsed(SetUseNow(j, a), b) == SetUseNow(SetUsed(j, b), a)
    ensures SetReroll(SetUseNow(j, a), b) == SetUseNow(SetReroll(j, b), a)
  {
  }
}

=== FILE: map_gen.dfy ===
/** Map assembly, `GameMap` (src/game/map/GameMap.java): the terrain bands of
    the background, the kingdom-count guard and `generateRandomMap`, which
    clamps and checks its arguments, places castles, lays roads, forms kingdoms
    and refuses a map whose road network is not connected.

    The Perlin noise field, the tile arithmetic and every random draw are
    inputs. */
module GameMaps {
  import opened Util
  import opened Geometry
  import opened Graphs
  import opened Castles
  import opened Connectivity
  import opened Topology
  import opened Clustering

  /** The background colours, lowest band first. */
  datatype Terrain = Water | Sand | Grass | Stone | Snow

  function Rank(t: Terrain): nat {
    match t
    case Water => 0
    case Sand => 1
    case Grass => 2
    case Stone => 3
    case Snow => 4
  }

  /** `doubleToColor` (src/game/map/GameMap.java:49-60): the band a noise value
      falls into, each band closed at its upper end. */
  function TerrainOf(v: real): (t: Terrain)
    ensures t == Water <==> v <= 0.40
    ensures t == Sand <==> 0.40 < v <= 0.5
    ensures t == Grass <==> 0.5 < v <= 0.7
    ensures t == Stone <==> 0.7 < v <= 0.8
    ensures t == Snow <==> 0.8 < v
  {
    if v <= 0.40 then Water
    else if v <= 0.5 then Sand
    else if v <= 0.7 then Grass
    else if v <= 0.8 then Stone
    else Snow
  }

  /** Higher noise never gives a lower band. */
  lemma TerrainMonotone(u: real, v: real)
    requires u <= v
    ensures Rank(TerrainOf(u)) <= Rank(TerrainOf(v))
  {
  }

  /** Castles stand on grass, stone or snow: high ground (at least 0.6) lies
      above the sand band. */
  lemma HighGroundIsDry(v: real)
    requires v >= HighGround
    ensures Rank(TerrainOf(v)) >= Rank(Grass)
  {
  }

  /** `generateKingdoms` (src/game/map/GameMap.java:291-298): clusters only for
      0 < k < number of castles, and reaches the guard of the clustering
      constructor for k == 1. */
  function GenerateKingdoms(castles: seq<Castle>, k: int, xs: seq<real>, ys: seq<real>, fuel: nat)
    : (r: Result<seq<Kingdom>>)
    requires 2 <= k < |castles| ==> |xs| == k && |ys| == k
    ensures !(0 < k < |castles|) ==> r == Ok([])
    ensures k == 1 && |castles| >= 2 ==> r == Err(IllegalArgument)
    ensures r.Err? ==> r.fault == IllegalArgument || r.fault == Diverged
    ensures r.Ok? && r.value != [] ==> 2 <= k < |castles| && |r.value| == k && Clustered(castles, r.value)
    ensures r.Ok? && 0 < k < |castles| ==> 2 <= k && |r.value| == k && Clustered(castles, r.value)
    ensures r == Err(IllegalArgument) <==> k == 1 && |castles| >= 2
  {
    if 0 < k < |castles| then GetPointsClusters(castles, k, xs, ys, fuel) else Ok([])
  }

  /** The castle graph before roads: one node per castle, added in placement order. */
  function NodesOf(cs: seq<Castle>): (g: CastleGraph)
    ensures g.values == cs && g.edges == [] && g.Wf()
  {
    if |cs| == 0 then EmptyGraph()
    else
      var init := NodesOf(cs[..|cs| - 1]);
      assert cs == cs[..|cs| - 1] + [cs[|cs| - 1]];
      AddNode(init, cs[|cs| - 1]).0
  }

  /** A generated map: its castle graph, its kingdoms and the clamped sizes. */
  datatype GameMap = GameMap(graph: CastleGraph, kingdoms: seq<Kingdom>, width: int, height: int, scale: int)

  function Max(a: int, b: int): (m: int)
    ensures m >= a && m >= b && (m == a || m == b)
  {
    if a >= b then a else b
  }

  /** The random draws one map generation consumes. */
  datatype Draws = Draws(fields: nat -> nat, merges: nat -> nat, centreXs: seq<real>, centreYs: seq<real>)

  /** What every assembled map satisfies: the clamped sizes, a well-formed
      castle graph with spaced castles each on a road, a road network that
      connects them all, and, when 0 < k < number of castles, k kingdoms as
      the clustering loop leaves them, none otherwise. */
  ghost predicate Assembled(m: GameMap, width: int, height: int, scale: int, k: int, t: Tiles) {
    && m.width == Max(width, 15) && m.height == Max(height, 10) && m.scale == scale
    && m.graph.Wf()
    && Spaced(m.graph.values, Spacing(t))
    && (forall u :: 0 <= u < |m.graph.values| ==> Degree(m.graph, u) >= 1)
    && (|m.graph.values| > 0 ==> AllReachableFromFirst(m.graph))
    && (if 0 < k < |m.graph.values| then 2 <= k && |m.kingdoms| == k && Clustered(m.graph.values, m.kingdoms)
        else m.kingdoms == [])
  }

  /** The stages of `generateRandomMap` (src/game/map/GameMap.java:314-332)
      before the connectivity check: clamp, check, place castles, lay roads and
      form kingdoms. */
  method AssembleMap(width: int, height: int, scale: int, castleCount: int, kingdomCount: int,
                     noise: seq<seq<real>>, t: Tiles, draws: Draws, fuel: nat)
    returns (r: Result<GameMap>)
    requires 2 <= kingdomCount ==> |draws.centreXs| == kingdomCount && |draws.centreYs| == kingdomCount
    ensures scale <= 0 || castleCount <= 0 ==> r == Err(IllegalArgument)
    ensures t.countX * t.countY < castleCount ==> r == Err(IllegalArgument)
    ensures r.Err? ==> r.fault in {IllegalArgument, IndexOutOfBounds, Diverged}
    ensures r == Err(IllegalArgument) ==>
              scale <= 0 || castleCount <= 0 || t.countX * t.countY < castleCount || kingdomCount == 1
    ensures r.Ok? ==> Assembled(r.value, width, height, scale, kingdomCount, t)
  {
    var w := Max(width, 15);
    var h := Max(height, 10);
    if scale <= 0 || castleCount <= 0 {
      return Err(IllegalArgument);
    }
    var roads := CastlesAndRoads(noise, t, castleCount, draws.fields, draws.merges, w);
    if roads.Err? {
      return Err(roads.fault);
    }
    var g := roads.value;
    var kingdoms := GenerateKingdoms(g.values, kingdomCount, draws.centreXs, draws.centreYs, fuel);
    if kingdoms.Err? {
      return Err(kingdoms.fault);
    }
    return Ok(GameMap(g, kingdoms.value, w, h, scale));
  }

  /** Castle placement followed by the four road passes: spaced castles, each
      on a road, all connected. */
  method CastlesAndRoads(noise: seq<seq<real>>, t: Tiles, castleCount: nat, fields: nat -> nat,
                         merges: nat -> nat, width: int)
    returns (r: Result<CastleGraph>)
    ensures r == Err(IllegalArgument) <==> t.countX * t.countY < castleCount
    ensures r.Err? ==> r.fault in {IllegalArgument, IndexOutOfBounds}
    ensures r.Ok? ==> r.value.Wf() && Spaced(r.value.values, Spacing(t))
    ensures r.Ok? ==> forall u :: 0 <= u < |r.value.values| ==> Degree(r.value, u) >= 1
    ensures r.Ok? && |r.value.values| > 0 ==> AllReachableFromFirst(r.value)
  {
    var placed, _ := GenerateCastles(noise, t, castleCount, fields);
    if placed.Err? {
      return Err(placed.fault);
    }
    var castles := placed.value;
    var roads := GenerateEdges(NodesOf(castles), width, merges);
    assert roads.value.values == castles;
    return Ok(roads.value);
  }

  /** `generateRandomMap` (src/game/map/GameMap.java:314-335). The width is raised
      to at least 15 and the height to at least 10; a non-positive scale or
      castle count is refused. Failures of the stages propagate, and no castle
      placed at all fails the connectivity check with an index error. The
      result would be None when the finished road network is not connected,
      but the road passes always connect it, so a map is returned whenever no
      exception is thrown; `built` is the map assembled before that check. */
  method GenerateRandomMap(width: int, height: int, scale: int, castleCount: int, kingdomCount: int,
                           noise: seq<seq<real>>, t: Tiles, draws: Draws, fuel: nat)
    returns (r: Result<Option<GameMap>>, ghost built: GameMap)
    requires 2 <= kingdomCount ==> |draws.centreXs| == kingdomCount && |draws.centreYs| == kingdomCount
    ensures scale <= 0 || castleCount <= 0 ==> r == Err(IllegalArgument)
    ensures r.Err? ==> r.fault in {IllegalArgument, IndexOutOfBounds, Diverged}
    ensures r == Err(IllegalArgument) ==>
              scale <= 0 || castleCount <= 0 || t.countX * t.countY < castleCount || kingdomCount == 1
    ensures r.Ok? ==> (r.value.Some? <==> AllReachableFromFirst(built.graph))
    ensures r.Ok? ==> r.value.Some?
    ensures r.Ok? && r.value.Some? ==> r.value.value == built
    ensures r.Ok? ==> Assembled(built, width, height, scale, kingdomCount, t) && |built.graph.values| > 0
  {
    built := GameMap(EmptyGraph(), [], width, height, scale);
    var assembled := AssembleMap(width, height, scale, castleCount, kingdomCount, noise, t, draws, fuel);
    if assembled.Err? {
      return Err(assembled.fault), built;
    }
    var m := assembled.value;
    built := m;
    var connected := AllNodesConnected(m.graph);
    if connected.Err? {
      return Err(connected.fault), built;
    }
    return Ok(if connected.value then Some(m) else None), built;
  }
}

=== FILE: score.dfy ===
/** High-score lines, `ScoreEntry` (src/game/ScoreEntry.java).

    A line is `name;timestamp;score;gameType`. Reading splits it at ';' the way
    `String.split` does, parses the timestamp as a long and the score as an int
    (either may throw), and only then checks the field count, the name, the
    timestamp's digit count against the current time's, the score's sign and
    last digit, and the game type. The current time enters as its digit count. */
module Scores {
  import opened Util

  /** A high-score entry; the date is its millisecond timestamp. */
  datatype Entry = Entry(name: string, date: int, score: int, gameType: string)

  const LongMin: int := -0x8000_0000_0000_0000
  const LongMax: int := 0x7FFF_FFFF_FFFF_FFFF
  const IntMin: int := -0x8000_0000
  const IntMax: int := 0x7FFF_FFFF

  /** The game types the reader accepts, spelled as it compares them. Its
      second entry has a cedilla where the general goal's name has a u-umlaut. */
  const GameTypes: seq<string> := ["Eroberung", "Heerf\U{00B8}hrer", "Punktelimit", "Monopol"]

  /** The names the goals give themselves, which `write` records: the
      conquest goal's, the general goal's (src/game/goals/GeneralGoal.java:12),
      the point goal's and the Monopol goal's. */
  const GoalNames: seq<string> := ["Eroberung", "Heerf\U{00FC}hrer", "Punktelimit", "Monopol"]

  /** Game type names that survive a line: non-empty and without ';'. */
  predicate PlainTypes(types: seq<string>) {
    forall i :: 0 <= i < |types| ==> |types[i]| > 0 && ';' !in types[i]
  }

  // ---- decimal text --------------------------------------------------------

  predicate IsDigit(c: char) {
    '0' <= c <= '9'
  }

  function DigitChar(d: nat): (c: char)
    requires d < 10
    ensures IsDigit(c) && c as int - '0' as int == d
  {
    ('0' as int + d) as char
  }

  /** The decimal digits of n, without leading zeros. */
  function Digits(n: nat): (s: string)
    ensures |s| > 0 && forall i :: 0 <= i < |s| ==> IsDigit(s[i])
    ensures s[|s| - 1] == DigitChar(n % 10)
  {
    if n < 10 then [DigitChar(n)] else Digits(n / 10) + [DigitChar(n % 10)]
  }

  /** `Long.toString` / `Integer.toString`. */
  function Decimal(n: int): (s: string)
    ensures |s| > 0 && s[|s| - 1] == DigitChar(if n < 0 then -n % 10 else n % 10)
  {
    if n < 0 then "-" + Digits(-n) else Digits(n)
  }

  function DigitValue(c: char): (d: nat)
    requires IsDigit(c)
    ensures d < 10 && DigitChar(d) == c
  {
    c as int - '0' as int
  }

  predicate AllDigits(s: string) {
    forall i :: 0 <= i < |s| ==> IsDigit(s[i])
  }

  /** The value of a digit string. */
  function Value(s: string): nat
    requires AllDigits(s)
  {
    if |s| == 0 then 0 else Value(s[..|s| - 1]) * 10 + DigitValue(s[|s| - 1])
  }

  lemma {:induction false} ValueOfDigits(n: nat)
    ensures Value(Digits(n)) == n
  {
    if n >= 10 {
      var s := Digits(n);
      assert s[..|s| - 1] == Digits(n / 10);
      ValueOfDigits(n / 10);
    }
  }

  /** The text after an optional leading sign. */
  function Unsigned(s: string): string
    requires |s| > 0
  {
    if s[0] == '-' || s[0] == '+' then s[1..] else s
  }

  /** `Long.parseLong` / `Integer.parseInt` on decimal text: an optional sign,
      then at least one digit, and a value within [lo, hi]; anything else is a
      NumberFormatException. */
  function ParseSigned(s: string, lo: int, hi: int): (r: Result<int>)
    ensures r.Err? ==> r.fault == NumberFormat
    ensures r.Ok? ==> lo <= r.value <= hi
    ensures r.Ok? ==> |s| > 0 && |Unsigned(s)| > 0 && AllDigits(Unsigned(s))
  {
    if |s| == 0 || |Unsigned(s)| == 0 || !AllDigits(Unsigned(s)) then Err(NumberFormat)
    else
      var v: int := Value(Unsigned(s));
      var n := if s[0] == '-' then -v else v;
      if n < lo || n > hi then Err(NumberFormat) else Ok(n)
  }

  /** Parsing gives back every in-range number it printed. */
  lemma ParseDecimal(n: int, lo: int, hi: int)
    requires lo <= n <= hi
    ensures ParseSigned(Decimal(n), lo, hi) == Ok(n)
  {
    var s := Decimal(n);
    if n < 0 {
      assert s[0] == '-' && s[1..] == Digits(-n);
      assert Unsigned(s) == Digits(-n);
      ValueOfDigits(-n);
    } else {
      assert IsDigit(s[0]);
      assert Unsigned(s) == Digits(n);
      ValueOfDigits(n);
    }
  }

  // ---- splitting -----------------------------------------------------------

  /** Every piece between semicolons, empty ones included. */
  function Parts(s: string): (ps: seq<string>)
    ensures |ps| > 0
    ensures ';' !in s ==> ps == [s]
  {
    if |s| == 0 then [""]
    else
      var rest := Parts(s[1..]);
      if s[0] == ';' then [""] + rest
      else
        assert ';' !in s ==> rest == [s[1..]] && [s[0]] + s[1..] == s;
        [[s[0]] + rest[0]] + rest[1..]
  }

  lemma {:induction false} PartsAfter(a: string, b: string)
    requires ';' !in a
    ensures Parts(a + ";" + b) == [a] + Parts(b)
  {
    if |a| > 0 {
      assert (a + ";" + b)[1..] == a[1..] + ";" + b;
      PartsAfter(a[1..], b);
      assert [a[0]] + a[1..] == a;
    } else {
      assert (a + ";" + b)[1..] == b;
    }
  }

  /** Drops trailing empty pieces. */
  function StripTrailing(ps: seq<string>): (r: seq<string>)
    ensures |r| <= |ps| && r == ps[..|r|]
    ensures |r| > 0 ==> r[|r| - 1] != ""
    ensures forall i :: |r| <= i < |ps| ==> ps[i] == ""
  {
    if |ps| == 0 || ps[|ps| - 1] != "" then ps else StripTrailing(ps[..|ps| - 1])
  }

  /** `line.split(";")`: the whole line when it has no ';', otherwise the
      pieces with trailing empty ones removed. */
  function Split(s: string): (fs: seq<string>)
    ensures ';' !in s ==> fs == [s]
    ensures ';' in s ==> fs == StripTrailing(Parts(s))
  {
    if ';' !in s then [s] else StripTrailing(Parts(s))
  }

  // ---- reading and writing -------------------------------------------------

  /** s contains t at position i. */
  predicate OccursAt(s: string, t: string, i: nat) {
    i + |t| <= |s| && s[i..i + |t|] == t
  }

  predicate Contains(s: string, t: string) {
    exists i: nat :: i <= |s| && OccursAt(s, t, i)
  }

  /** The name test: the two characters "/n", a colon or a comma are refused. */
  predicate NameRefused(name: string) {
    Contains(name, "/n") || Contains(name, ":") || Contains(name, ",")
  }

  /** `Character.isLetter`, for the characters that can reach it here. */
  predicate IsLetter(c: char) {
    ('a' <= c <= 'z') || ('A' <= c <= 'Z')
  }

  predicate HasLetter(s: string) {
    exists i :: 0 <= i < |s| && IsLetter(s[i])
  }

  /** `write` (src/game/ScoreEntry.java:55-62): the four fields joined by ';'.
      When the name and the game type hold no ';', and the game type is not
      empty, splitting the line gives the four fields back. */
  function Write(e: Entry): (line: string)
    ensures ';' !in e.name && ';' !in e.gameType && |e.gameType| > 0 ==>
              Split(line) == [e.name, Decimal(e.date), Decimal(e.score), e.gameType]
  {
    var line := e.name + ";" + Decimal(e.date) + ";" + Decimal(e.score) + ";" + e.gameType;
    DecimalPlain(e.date);
    DecimalPlain(e.score);
    if ';' !in e.name && ';' !in e.gameType && |e.gameType| > 0 then
      SplitOfFour(e.name, Decimal(e.date), Decimal(e.score), e.gameType);
      line
    else line
  }

  /** The fields of a line together with its parsed timestamp and score. */
  datatype Fields = Fields(parts: seq<string>, date: int, score: int)

  /** The part of `read` that throws (src/game/ScoreEntry.java:82-90): split the
      line, parse field 1 as a long and field 2 as an int, and reach field 3. */
  function ReadFields(line: string): (r: Result<Fields>)
    ensures r.Err? ==> r.fault == IndexOutOfBounds || r.fault == NumberFormat
    ensures |Split(line)| < 2 ==> r == Err(IndexOutOfBounds)
    ensures r.Ok? ==> r.value.parts == Split(line) && |r.value.parts| >= 4
    ensures r.Ok? ==> ParseSigned(r.value.parts[1], LongMin, LongMax) == Ok(r.value.date)
    ensures r.Ok? ==> ParseSigned(r.value.parts[2], IntMin, IntMax) == Ok(r.value.score)
  {
    var f := Split(line);
    if |f| < 2 then Err(IndexOutOfBounds)
    else
      var date := ParseSigned(f[1], LongMin, LongMax);
      if date.Err? then Err(NumberFormat)
      else if |f| < 3 then Err(IndexOutOfBounds)
      else
        var score := ParseSigned(f[2], IntMin, IntMax);
        if score.Err? then Err(NumberFormat)
        else if |f| < 4 then Err(IndexOutOfBounds)
        else Ok(Fields(f, date.value, score.value))
  }

  /** The checks of `read` (src/game/ScoreEntry.java:91-111), in source order;
      the first that fails gives None. `types` is the list the game type is
      looked up in: `GameTypes` in the code. */
  function Check(f: Fields, nowDigits: nat, types: seq<string>): (e: Option<Entry>)
    requires |f.parts| >= 4 && LongMin <= f.date <= LongMax
    requires ParseSigned(f.parts[2], IntMin, IntMax) == Ok(f.score)
    requires forall i :: 0 <= i < |f.parts| ==> ';' !in f.parts[i]
    ensures |f.parts| > 4 ==> e.None?
    ensures e.Some? ==> e.value == Entry(f.parts[0], f.date, f.score, f.parts[3]) && Accepted(e.value, nowDigits, types)
  {
    var p := f.parts[2];
    if |f.parts| != 4 then None
    else if NameRefused(f.parts[0]) then None
    else if |Decimal(f.date)| != nowDigits then None
    else if HasLetter(Decimal(f.date)) then None
    else if f.score < 0 then None
    else if p[|p| - 1] != '0' && p[|p| - 1] != '5' then None
    else if HasLetter(p) then None
    else if f.parts[3] !in types then None
    else
      LastDigitOfScore(p, f.score);
      Some(Entry(f.parts[0], f.date, f.score, f.parts[3]))
  }

  /** `read` (src/game/ScoreEntry.java:80-112). Missing fields and unparsable
      numbers throw before any check; a failed check gives None. The code
      looks game types up in `GameTypes`. */
  function Read(line: string, nowDigits: nat, types: seq<string>): (r: Result<Option<Entry>>)
    ensures r.Err? ==> r.fault == IndexOutOfBounds || r.fault == NumberFormat
    ensures |Split(line)| < 2 ==> r == Err(IndexOutOfBounds)
    ensures r.Ok? ==> |Split(line)| >= 4
    ensures r.Ok? && |Split(line)| > 4 ==> r.value.None?
    ensures r.Ok? && r.value.Some? ==> Accepted(r.value.value, nowDigits, types)
    ensures r.Ok? && r.value.Some? ==>
              var f := Split(line);
              r.value.value.name == f[0] && r.value.value.gameType == f[3]
              && ParseSigned(f[1], LongMin, LongMax) == Ok(r.value.value.date)
              && ParseSigned(f[2], IntMin, IntMax) == Ok(r.value.value.score)
  {
    match ReadFields(line)
    case Err(x) => Err(x)
    case Ok(f) =>
      SplitFieldsHaveNoSemicolon(line);
      Ok(Check(f, nowDigits, types))
  }

  /** What a read entry satisfies. The name has no ';' (it was a field) and
      passes the name test; the timestamp is a long with as many digits as the
      current time; the score is a non-negative int and a multiple of 5; the
      game type is one of `types`. */
  ghost predicate Accepted(e: Entry, nowDigits: nat, types: seq<string>) {
    AcceptedFields(e, nowDigits) && e.gameType in types
  }

  /** The checks on everything but the game type. */
  ghost predicate AcceptedFields(e: Entry, nowDigits: nat) {
    && ';' !in e.name && !NameRefused(e.name)
    && LongMin <= e.date <= LongMax && |Decimal(e.date)| == nowDigits
    && 0 <= e.score <= IntMax && e.score % 5 == 0
  }

  /** A parsed score text ending in 0 or 5 denotes a multiple of 5. */
  lemma LastDigitOfScore(s: string, n: int)
    requires ParseSigned(s, IntMin, IntMax) == Ok(n) && n >= 0
    requires s[|s| - 1] == '0' || s[|s| - 1] == '5'
    ensures n % 5 == 0
  {
    var body := Unsigned(s);
    assert body[|body| - 1] == s[|s| - 1];
    var v: int := Value(body);
    assert n == v || n == -v;
    LastDigitValue(body);
  }

  lemma LastDigitValue(s: string)
    requires |s| > 0 && AllDigits(s)
    ensures Value(s) % 10 == DigitValue(s[|s| - 1])
  {
    var d := DigitValue(s[|s| - 1]);
    var a := Value(s[..|s| - 1]);
    assert Value(s) == a * 10 + d;
    ModTen(a, d);
  }

  lemma ModTen(a: nat, d: nat)
    requires d < 10
    ensures (a * 10 + d) % 10 == d
  {
  }

  /** A field of a split line holds no ';'. */
  lemma SplitFieldsHaveNoSemicolon(line: string)
    ensures forall i :: 0 <= i < |Split(line)| ==> ';' !in Split(line)[i]
  {
    PartsHaveNoSemicolon(line);
  }

  lemma {:induction false} PartsHaveNoSemicolon(s: string)
    ensures forall i :: 0 <= i < |Parts(s)| ==> ';' !in Parts(s)[i]
  {
    if |s| > 0 {
      PartsHaveNoSemicolon(s[1..]);
    }
  }

  /** Round trip: an entry that meets every check of `read` is written as a line
      that reads back as the same entry. */
  lemma WriteThenRead(e: Entry, nowDigits: nat, types: seq<string>)
    requires PlainTypes(types) && Accepted(e, nowDigits, types)
    ensures Read(Write(e), nowDigits, types) == Ok(Some(e))
  {
    var f := WrittenFields(e);
    SplitFieldsHaveNoSemicolon(Write(e));
    PassesUpToType(e, f, nowDigits, types);
  }

  /** As written, the score of a game played for the general goal is lost:
      its line names the goal as the goal names itself, which the reader's
      list spells differently, so reading it back gives null. */
  lemma GeneralScoreDropped(e: Entry, nowDigits: nat)
    requires AcceptedFields(e, nowDigits) && e.gameType == GoalNames[1]
    ensures Read(Write(e), nowDigits, GameTypes) == Ok(None)
  {
    var f := WrittenFields(e);
    SplitFieldsHaveNoSemicolon(Write(e));
    assert GoalNames[1][5] != GameTypes[1][5];
    assert e.gameType !in GameTypes;
    PassesUpToType(e, f, nowDigits, GameTypes);
  }

  /** With the goals' own names as the reader's list, every goal's scores
      round-trip. */
  lemma WriteThenReadGoals(e: Entry, nowDigits: nat)
    requires AcceptedFields(e, nowDigits) && e.gameType in GoalNames
    ensures Read(Write(e), nowDigits, GoalNames) == Ok(Some(e))
  {
    WriteThenRead(e, nowDigits, GoalNames);
  }

  /** The line written for an entry splits into its four fields and its two
      numbers parse back. */
  lemma WrittenFields(e: Entry) returns (f: Fields)
    requires ';' !in e.name && ';' !in e.gameType && |e.gameType| > 0
    requires LongMin <= e.date <= LongMax && IntMin <= e.score <= IntMax
    ensures f == Fields([e.name, Decimal(e.date), Decimal(e.score), e.gameType], e.date, e.score)
    ensures ReadFields(Write(e)) == Ok(f)
  {
    f := Fields([e.name, Decimal(e.date), Decimal(e.score), e.gameType], e.date, e.score);
    DecimalPlain(e.date);
    DecimalPlain(e.score);
    SplitOfFour(e.name, Decimal(e.date), Decimal(e.score), e.gameType);
    ParseDecimal(e.date, LongMin, LongMax);
    ParseDecimal(e.score, IntMin, IntMax);
  }

  /** The fields of a written entry pass every check before the game type's,
      which alone decides. */
  lemma PassesUpToType(e: Entry, f: Fields, nowDigits: nat, types: seq<string>)
    requires AcceptedFields(e, nowDigits)
    requires f == Fields([e.name, Decimal(e.date), Decimal(e.score), e.gameType], e.date, e.score)
    requires ParseSigned(f.parts[2], IntMin, IntMax) == Ok(f.score)
    requires forall i :: 0 <= i < |f.parts| ==> ';' !in f.parts[i]
    ensures Check(f, nowDigits, types) == if e.gameType in types then Some(e) else None
  {
    var p := Decimal(e.score);
    DecimalPlain(e.date);
    DecimalPlain(e.score);
    assert p[|p| - 1] == '0' || p[|p| - 1] == '5' by {
      assert p[|p| - 1] == DigitChar(e.score % 10);
      assert e.score % 10 == 0 || e.score % 10 == 5;
    }
  }

  /** Printed numbers hold neither ';' nor a letter. */
  lemma DecimalPlain(n: int)
    ensures ';' !in Decimal(n) && !HasLetter(Decimal(n))
  {
    var s := Decimal(n);
    forall i | 0 <= i < |s| ensures s[i] != ';' && !IsLetter(s[i]) {
      if n < 0 && i > 0 {
        assert s[i] == Digits(-n)[i - 1];
      }
    }
  }

  /** Both lists name only non-empty types without ';'. */
  lemma NamesArePlain()
    ensures PlainTypes(GameTypes) && PlainTypes(GoalNames)
  {
  }

  /** Four fields free of ';', the last non-empty, split back apart. */
  lemma SplitOfFour(a: string, b: string, c: string, d: string)
    requires ';' !in a && ';' !in b && ';' !in c && ';' !in d && |d| > 0
    ensures Split(a + ";" + b + ";" + c + ";" + d) == [a, b, c, d]
  {
    var cd := c + ";" + d;
    var bcd := b + ";" + cd;
    var line := a + ";" + bcd;
    assert a + ";" + b + ";" + c + ";" + d == line;
    PartsAfter(c, d);
    assert Parts(cd) == [c, d];
    PartsAfter(b, cd);
    assert Parts(bcd) == [b, c, d];
    PartsAfter(a, bcd);
    assert Parts(line) == [a, b, c, d];
    assert line[|a|] == ';';
    assert StripTrailing([a, b, c, d]) == [a, b, c, d];
  }

  /** `compareTo` (src/game/ScoreEntry.java:44-46): `Integer.compare` of the scores. */
  function Compare(a: Entry, b: Entry): (c: int)
    ensures c < 0 <==> a.score < b.score
    ensures c == 0 <==> a.score == b.score
    ensures c > 0 <==> a.score > b.score
  {
    if a.score < b.score then -1 else if a.score == b.score then 0 else 1
  }

  /** The order is antisymmetric and ignores everything but the score. */
  lemma CompareAntisymmetric(a: Entry, b: Entry)
    ensures Compare(a, b) == -Compare(b, a)
    ensures Compare(a, b) == Compare(a.(name := "", gameType := ""), b.(date := 0))
  {
  }
}

=== FILE: shortest_path.dfy ===
/** The path-search skeleton of src/base/GraphAlgorithm.java, following the code
    as written.

    Each node has a stored cost (`-1` meaning "not set") and an optional
    predecessor; `available` is the list of nodes not yet taken. The cost of an
    edge and whether it can be passed are supplied by the caller as the two
    functions `edgeCost` and `passable` (the abstract `getValue` and
    `isPassable(Edge)` hooks). Costs are Java doubles; here they are exact reals. */
module ShortestPath {
  import opened Util
  import opened Graphs

  const Unset: real := -1.0

  datatype Algo<T> = Algo(graph: Graph<T>, available: seq<nat>, cost: seq<real>,
                          previous: seq<Option<nat>>)
  {
    predicate Wf() {
      && graph.Wf()
      && |cost| == |graph.values| && |previous| == |graph.values|
      && (forall i :: 0 <= i < |available| ==> available[i] < |graph.values|)
      && (forall w :: 0 <= w < |previous| && previous[w].Some? ==> previous[w].value < |graph.values|)
    }
  }

  /** The constructor: every node unset and without predecessor, except the
      source, whose cost is 0; every node available, in node order. A source
      outside the graph has no entry in the node map, and setting its cost
      dereferences null. */
  function Init<T>(g: Graph<T>, source: nat): (r: Result<Algo<T>>)
    requires g.Wf()
    ensures r.Err? <==> source >= |g.values|
    ensures r.Err? ==> r.fault == NullPointer
    ensures r.Ok? ==> r.value.Wf() && r.value.graph == g
    ensures r.Ok? ==> r.value.available == Range(|g.values|)
    ensures r.Ok? ==> forall i :: 0 <= i < |g.values| ==> r.value.previous[i] == None
    ensures r.Ok? ==> forall i :: 0 <= i < |g.values| ==>
              r.value.cost[i] == (if i == source then 0.0 else Unset)
  {
    if source >= |g.values| then Err(NullPointer)
    else
      Ok(Algo(g, Range(|g.values|),
              seq(|g.values|, i => if i == source then 0.0 else Unset),
              seq(|g.values|, i => None)))
  }

  // ---------------------------------------------------------------------
  // getSmallestNode

  /** The stored costs of the available nodes, in list order. */
  function Costs<T>(st: Algo<T>): (c: seq<real>)
    requires st.Wf()
    ensures |c| == |st.available|
    ensures forall j :: 0 <= j < |c| ==> c[j] == st.cost[st.available[j]]
  {
    seq(|st.available|, j requires 0 <= j < |st.available| => st.cost[st.available[j]])
  }

  /** Minimum of a non-empty cost list, accumulated from the left. */
  function SeqMin(c: seq<real>): real
    requires |c| > 0
  {
    if |c| == 1 then c[0]
    else
      var m := SeqMin(c[..|c| - 1]);
      if c[|c| - 1] < m then c[|c| - 1] else m
  }

  lemma {:induction false} SeqMinIsLeast(c: seq<real>) returns (w: nat)
    requires |c| > 0
    ensures w < |c| && c[w] == SeqMin(c)
    ensures forall j :: 0 <= j < |c| ==> SeqMin(c) <= c[j]
  {
    if |c| == 1 {
      w := 0;
    } else {
      var t := c[..|c| - 1];
      var w' := SeqMinIsLeast(t);
      w := if c[|c| - 1] < SeqMin(t) then |c| - 1 else w';
      assert forall j :: 0 <= j < |c| - 1 ==> c[j] == t[j];
    }
  }

  lemma {:induction false} SeqMinAtLeast(c: seq<real>, lo: real)
    requires |c| > 0 && forall j :: 0 <= j < |c| ==> lo <= c[j]
    ensures lo <= SeqMin(c)
  {
    if |c| > 1 {
      SeqMinAtLeast(c[..|c| - 1], lo);
    }
  }

  /** Some cost lies above the minimum of the costs before it: the list is not
      non-increasing. This is the `diff` flag of `getSmallestNode`. */
  ghost predicate Rises(c: seq<real>) {
    exists j :: 1 <= j < |c| && c[j] > SeqMin(c[..j])
  }

  lemma RisesExtend(c: seq<real>, i: nat)
    requires 1 <= i < |c|
    ensures Rises(c[..i + 1]) <==> Rises(c[..i]) || c[i] > SeqMin(c[..i])
    ensures SeqMin(c[..i + 1]) == if c[i] < SeqMin(c[..i]) then c[i] else SeqMin(c[..i])
  {
    MinExtend(c, i);
    RisesGrow(c, i);
    RisesShrink(c, i);
  }

  lemma MinExtend(c: seq<real>, i: nat)
    requires 1 <= i < |c|
    ensures SeqMin(c[..i + 1]) == if c[i] < SeqMin(c[..i]) then c[i] else SeqMin(c[..i])
  {
    assert c[..i + 1][..i] == c[..i];
  }

  lemma RisesGrow(c: seq<real>, i: nat)
    requires 1 <= i < |c|
    ensures Rises(c[..i]) || c[i] > SeqMin(c[..i]) ==> Rises(c[..i + 1])
  {
    var p := c[..i + 1];
    RiseAt(c, i + 1, i);
    if Rises(c[..i]) {
      var j :| 1 <= j < i && c[..i][j] > SeqMin(c[..i][..j]);
      RiseAt(c, i, j);
      RiseAt(c, i + 1, j);
      assert p[j] > SeqMin(p[..j]);
    }
  }

  lemma RisesShrink(c: seq<real>, i: nat)
    requires 1 <= i < |c|
    ensures Rises(c[..i + 1]) ==> Rises(c[..i]) || c[i] > SeqMin(c[..i])
  {
    var p := c[..i + 1];
    if Rises(p) {
      var j :| 1 <= j < |p| && p[j] > SeqMin(p[..j]);
      RiseAt(c, i + 1, j);
      if j < i {
        RiseAt(c, i, j);
        assert c[..i][j] > SeqMin(c[..i][..j]);
      }
    }
  }

  /** Whether position j rises does not depend on the prefix it is read in. */
  lemma RiseAt(c: seq<real>, k: nat, j: nat)
    requires 1 <= j < k <= |c|
    ensures c[..k][j] == c[j] && c[..k][..j] == c[..j]
  {
  }

  /** The first scan of `getSmallestNode`: the minimum cost and whether the
      costs rise anywhere. */
  method ScanCosts(c: seq<real>) returns (min: real, diff: bool)
    requires |c| > 0
    ensures min == SeqMin(c)
    ensures diff <==> Rises(c)
  {
    min := c[0];
    diff := false;
    var i := 1;
    assert c[..1] == [c[0]];
    while i < |c|
      invariant 1 <= i <= |c|
      invariant min == SeqMin(c[..i])
      invariant diff <==> Rises(c[..i])
    {
      RisesExtend(c, i);
      var actual := c[i];
      if actual < min {
        min := actual;
      }
      if actual != min {
        diff := true;
      }
      i := i + 1;
    }
    assert c[..i] == c;
  }

  /** The second scan: the first position holding the minimum. */
  method FindMin(c: seq<real>) returns (k: nat)
    requires |c| > 0
    ensures k < |c| && c[k] == SeqMin(c)
    ensures forall j :: 0 <= j < k ==> c[j] != SeqMin(c)
  {
    var min := SeqMin(c);
    ghost var w := SeqMinIsLeast(c);
    k := 0;
    while c[k] != min
      invariant 0 <= k <= w
      invariant forall j :: 0 <= j < k ==> c[j] != min
      decreases w - k
    {
      k := k + 1;
    }
  }

  /** `getSmallestNode`: None, state unchanged, when nothing is available.
      Otherwise one node is removed from `available` and returned: when the
      available costs rise somewhere, the first node whose cost equals the overall
      minimum; when they never rise (non-increasing), the first node. */
  method GetSmallestNode<T>(st: Algo<T>) returns (st': Algo<T>, node: Option<nat>, ghost pos: nat)
    requires st.Wf()
    ensures node.None? <==> |st.available| == 0
    ensures node.None? ==> st' == st
    ensures node.Some? ==> pos < |st.available| && node.value == st.available[pos]
    ensures node.Some? ==> st' == st.(available := st.available[..pos] + st.available[pos + 1..])
    ensures node.Some? && Rises(Costs(st)) ==>
              Costs(st)[pos] == SeqMin(Costs(st))
              && forall j :: 0 <= j < pos ==> Costs(st)[j] != SeqMin(Costs(st))
    ensures node.Some? && !Rises(Costs(st)) ==> pos == 0
  {
    if |st.available| == 0 {
      return st, None, 0;
    }
    var c := Costs(st);
    var min, diff := ScanCosts(c);
    var k := 0;
    if diff {
      k := FindMin(c);
    }
    pos := k;
    st' := st.(available := st.available[..k] + st.available[k + 1..]);
    node := Some(st.available[k]);
  }

  // ---------------------------------------------------------------------
  // Relaxation of the edges at one processed node

  /** Edge e at v lets v become the predecessor of w: it is passable, w is its
      other end, and w is unset or `cost(v) + edgeCost(e)` is strictly below
      w's stored cost. */
  ghost predicate Improves<T>(g: Graph<T>, cost: seq<real>, edgeCost: Edge -> real,
                              passable: Edge -> bool, v: nat, e: Edge, w: nat)
  {
    && e in g.edges && Touches(e, v) && passable(e) && Other(e, v) == w
    && v < |cost| && w < |cost|
    && (cost[w] == Unset || cost[v] + edgeCost(e) < cost[w])
  }

  ghost predicate ImprovedBy<T>(g: Graph<T>, cost: seq<real>, edgeCost: Edge -> real,
                                passable: Edge -> bool, v: nat, w: nat)
  {
    exists e :: e in g.edges && Improves(g, cost, edgeCost, passable, v, e, w)
  }

  /** The first edge of `es` sets w's link exactly when it improves w; the
      rest of the list decides the others. */
  lemma RelaxEdgesStep<T>(st: Algo<T>, v: nat, es: seq<Edge>, prev: seq<Option<nat>>,
                          prev': seq<Option<nat>>, r: seq<Option<nat>>,
                          edgeCost: Edge -> real, passable: Edge -> bool)
    requires st.Wf() && v < |st.graph.values| && |prev| == |st.graph.values| && |es| > 0
    requires forall e :: e in es ==> e in st.graph.edges && Touches(e, v)
    requires var e := es[0]; var w := Other(e, v);
             prev' == if passable(e) && (st.cost[w] == Unset || st.cost[v] + edgeCost(e) < st.cost[w])
                      then prev[w := Some(v)] else prev
    requires |r| == |prev|
    requires forall w :: 0 <= w < |r| ==>
               r[w] == if exists e :: e in es[1..] && Improves(st.graph, st.cost, edgeCost, passable, v, e, w)
                       then Some(v) else prev'[w]
    ensures forall w :: 0 <= w < |r| ==>
              r[w] == if exists e :: e in es && Improves(st.graph, st.cost, edgeCost, passable, v, e, w)
                      then Some(v) else prev[w]
  {
    var e := es[0];
    assert forall e' :: e' in es <==> e' == e || e' in es[1..];
    forall u | 0 <= u < |r|
      ensures r[u] == if exists e' :: e' in es && Improves(st.graph, st.cost, edgeCost, passable, v, e', u)
                      then Some(v) else prev[u]
    {
      if Improves(st.graph, st.cost, edgeCost, passable, v, e, u) {
        assert prev'[u] == Some(v);
      } else {
        assert prev'[u] == prev[u];
      }
    }
  }

  /** The edge loop of `run` (src/base/GraphAlgorithm.java:113-120) over the
      edges `es` still to visit. The improved cost goes only into a local
      variable, so the stored costs stay as they are and only predecessors move. */
  function RelaxEdges<T>(st: Algo<T>, v: nat, es: seq<Edge>, prev: seq<Option<nat>>,
                         edgeCost: Edge -> real, passable: Edge -> bool): (r: seq<Option<nat>>)
    requires st.Wf() && v < |st.graph.values| && |prev| == |st.graph.values|
    requires forall e :: e in es ==> e in st.graph.edges && Touches(e, v)
    ensures |r| == |prev|
    ensures forall w :: 0 <= w < |r| ==>
              r[w] == if exists e :: e in es && Improves(st.graph, st.cost, edgeCost, passable, v, e, w)
                      then Some(v) else prev[w]
    decreases |es|
  {
    if |es| == 0 then prev
    else
      var e := es[0];
      var w := Other(e, v);
      var prev' := if passable(e) && (st.cost[w] == Unset || st.cost[v] + edgeCost(e) < st.cost[w])
                   then prev[w := Some(v)] else prev;
      var r := RelaxEdges(st, v, es[1..], prev', edgeCost, passable);
      RelaxEdgesStep(st, v, es, prev, prev', r, edgeCost, passable);
      r
  }

  /** Every predecessor link follows an edge of the graph. */
  ghost predicate Backed<T>(st: Algo<T>)
    requires st.Wf()
  {
    forall w :: 0 <= w < |st.previous| && st.previous[w].Some? ==>
      GetEdge(st.graph, w, st.previous[w].value).Some?
  }

  /** Relaxation only sets links along edges, so a backed state stays backed. */
  lemma RelaxKeepsBacked<T>(st: Algo<T>, v: nat, edgeCost: Edge -> real, passable: Edge -> bool,
                            prev: seq<Option<nat>>)
    requires st.Wf() && v < |st.graph.values|
    requires prev == RelaxEdges(st, v, Incident(st.graph.edges, v), st.previous, edgeCost, passable)
    ensures Backed(st) ==> Backed(st.(previous := prev))
  {
    if Backed(st) {
      forall w | 0 <= w < |prev| && prev[w].Some?
        ensures GetEdge(st.graph, w, prev[w].value).Some?
      {
        if prev[w] != st.previous[w] {
          var e :| e in Incident(st.graph.edges, v) && Improves(st.graph, st.cost, edgeCost, passable, v, e, w);
          assert Joins(e, w, v);
        }
      }
    }
  }

  /** One processed node v: w's predecessor becomes v exactly when some edge at v
      improves w; nothing else changes. */
  function Relax<T>(st: Algo<T>, v: nat, edgeCost: Edge -> real, passable: Edge -> bool)
    : (st': Algo<T>)
    requires st.Wf() && v < |st.graph.values|
    ensures st'.Wf()
    ensures st'.graph == st.graph && st'.available == st.available && st'.cost == st.cost
    ensures forall w :: 0 <= w < |st.previous| ==>
              st'.previous[w] == if ImprovedBy(st.graph, st.cost, edgeCost, passable, v, w)
                                 then Some(v) else st.previous[w]
    ensures Backed(st) ==> Backed(st')
  {
    var es := Incident(st.graph.edges, v);
    var prev := RelaxEdges(st, v, es, st.previous, edgeCost, passable);
    var st' := st.(previous := prev);
    RelaxKeepsBacked(st, v, edgeCost, passable, prev);
    st'
  }

  // ---------------------------------------------------------------------
  // run

  /** Costs as the constructor leaves them: every cost is unset or 0, and at
      most one node has cost 0. */
  ghost predicate InitialCosts(cost: seq<real>) {
    && (forall i :: 0 <= i < |cost| ==> cost[i] == Unset || cost[i] == 0.0)
    && (forall i, j :: 0 <= i < |cost| && 0 <= j < |cost| && cost[i] == 0.0 && cost[j] == 0.0 ==> i == j)
  }

  lemma InitHasInitialCosts<T>(g: Graph<T>, source: nat)
    requires g.Wf() && source < |g.values|
    ensures Init(g, source).Ok?
    ensures InitialCosts(Init(g, source).value.cost) && NoDup(Init(g, source).value.available)
    ensures Backed(Init(g, source).value)
  {
  }

  /** With such costs, the head of a cost list is its minimum whenever the list
      rises, so `getSmallestNode` always takes the first available node. */
  lemma HeadIsTaken(c: seq<real>)
    requires |c| > 0
    requires forall j :: 0 <= j < |c| ==> c[j] == Unset || c[j] == 0.0
    requires forall i, j :: 0 <= i < |c| && 0 <= j < |c| && c[i] == 0.0 && c[j] == 0.0 ==> i == j
    ensures Rises(c) ==> c[0] == SeqMin(c)
  {
    SeqMinAtLeast(c, Unset);
    var _ := SeqMinIsLeast(c);
    if c[0] == 0.0 {
      forall j | 1 <= j < |c| ensures c[j] <= SeqMin(c[..j]) {
        assert c[j] == Unset;
        SeqMinAtLeast(c[..j], Unset);
      }
    }
  }

  method TakeHead<T>(st: Algo<T>) returns (st': Algo<T>, node: Option<nat>)
    requires st.Wf() && InitialCosts(st.cost) && NoDup(st.available)
    ensures node.None? <==> |st.available| == 0
    ensures node.None? ==> st' == st
    ensures node.Some? ==> node.value == st.available[0] && st' == st.(available := st.available[1..])
  {
    ghost var pos;
    st', node, pos := GetSmallestNode(st);
    if node.Some? {
      var c := Costs(st);
      HeadIsTaken(c);
      assert pos == 0;
      assert st.available[..0] + st.available[1..] == st.available[1..];
    }
  }

  /** w's predecessor after the nodes at odd positions below `upto` of the
      original available list have been processed: the last of them that
      improves w, or w's original predecessor when none does. */
  ghost predicate PredAfter<T>(st: Algo<T>, edgeCost: Edge -> real, passable: Edge -> bool,
                               w: nat, upto: nat, pw: Option<nat>)
    requires upto <= |st.available| && w < |st.previous|
  {
    || (&& pw == st.previous[w]
        && forall p :: 0 <= p < upto && p % 2 == 1 ==>
             !ImprovedBy(st.graph, st.cost, edgeCost, passable, st.available[p], w))
    || (exists p :: && 0 <= p < upto && p % 2 == 1 && pw == Some(st.available[p])
                    && ImprovedBy(st.graph, st.cost, edgeCost, passable, st.available[p], w)
                    && forall q :: p < q < upto && q % 2 == 1 ==>
                         !ImprovedBy(st.graph, st.cost, edgeCost, passable, st.available[q], w))
  }

  /** `run`: every loop test takes a node and throws it away, and the body takes
      the next one and relaxes its edges. So the nodes at even positions of
      `available` are dropped unprocessed, those at odd positions are relaxed, and
      an odd number of available nodes ends in a null dereference. Stored costs
      never change. */
  method Run<T>(st: Algo<T>, edgeCost: Edge -> real, passable: Edge -> bool)
    returns (r: Result<Algo<T>>)
    requires st.Wf() && InitialCosts(st.cost) && NoDup(st.available)
    ensures r.Err? <==> |st.available| % 2 == 1
    ensures r.Err? ==> r.fault == NullPointer
    ensures r.Ok? ==> r.value.Wf() && r.value.graph == st.graph && r.value.cost == st.cost
    ensures r.Ok? ==> r.value.available == []
    ensures r.Ok? ==> forall w :: 0 <= w < |st.previous| ==>
              PredAfter(st, edgeCost, passable, w, |st.available|, r.value.previous[w])
    ensures r.Ok? && Backed(st) ==> Backed(r.value)
  {
    var cur := st;
    var k := 0;
    while true
      invariant Progress(st, edgeCost, passable, k, cur)
      decreases |cur.available|
    {
      var outcome, next := RunRound(st, edgeCost, passable, k, cur);
      if outcome == Finished {
        return Ok(cur);
      } else if outcome == Crashed {
        return Err(NullPointer);
      }
      cur := next;
      k := k + 1;
    }
  }

  /** What `run` has established after k rounds. */
  ghost predicate Progress<T>(st: Algo<T>, edgeCost: Edge -> real, passable: Edge -> bool, k: nat, cur: Algo<T>)
    requires st.Wf()
  {
    && cur.Wf() && cur.graph == st.graph && cur.cost == st.cost
    && 2 * k <= |st.available| && cur.available == st.available[2 * k..]
    && NoDup(cur.available) && InitialCosts(cur.cost)
    && PredsAfter(st, edgeCost, passable, 2 * k, cur.previous)
    && (Backed(st) ==> Backed(cur))
  }

  datatype Outcome = Finished | Crashed | Continued

  /** One loop test and body of `run`: the first take finds nothing (the loop
      ends), or the second finds nothing (null dereference), or the second node
      is relaxed. */
  method RunRound<T>(st: Algo<T>, edgeCost: Edge -> real, passable: Edge -> bool, k: nat, cur: Algo<T>)
    returns (outcome: Outcome, next: Algo<T>)
    requires st.Wf() && Progress(st, edgeCost, passable, k, cur)
    ensures outcome == Finished <==> |cur.available| == 0
    ensures outcome == Crashed <==> |cur.available| == 1
    ensures outcome == Continued ==>
              Progress(st, edgeCost, passable, k + 1, next) && |next.available| < |cur.available|
  {
    var s1, n1 := TakeHead(cur);
    if n1.None? {
      return Finished, cur;
    }
    NoDupTail(cur.available);
    var s2, n2 := TakeHead(s1);
    if n2.None? {
      return Crashed, cur;
    }
    var v := n2.value;
    assert s1.available[1..] == cur.available[2..];
    next := Relax(s2, v, edgeCost, passable);
    RoundProgress(st, edgeCost, passable, k, cur, next);
    outcome := Continued;
  }

  /** Relaxing the second node of the remaining list, with both nodes taken off,
      keeps the loop state one round further on. */
  lemma RoundProgress<T>(st: Algo<T>, edgeCost: Edge -> real, passable: Edge -> bool, k: nat,
                         cur: Algo<T>, next: Algo<T>)
    requires st.Wf() && Progress(st, edgeCost, passable, k, cur) && |cur.available| >= 2
    requires cur.available[1] < |cur.graph.values|
    requires next == Relax(cur.(available := cur.available[2..]), cur.available[1], edgeCost, passable)
    ensures Progress(st, edgeCost, passable, k + 1, next)
  {
    var s2 := cur.(available := cur.available[2..]);
    DropTwo(st.available, cur.available, 2 * k);
    assert Backed(cur) ==> Backed(s2);
    RoundStep(st, edgeCost, passable, 2 * k, cur.previous, s2, next);
  }

  /** Taking two nodes off the remaining suffix leaves the suffix two further
      on, still without repeats. */
  lemma DropTwo(all: seq<nat>, rest: seq<nat>, n: nat)
    requires n <= |all| && rest == all[n..] && |rest| >= 2 && NoDup(rest)
    ensures n + 2 <= |all| && rest[2..] == all[n + 2..] && rest[1] == all[n + 1]
    ensures NoDup(rest[2..])
  {
    NoDupTail(rest);
    NoDupTail(rest[1..]);
    assert rest[1..][1..] == rest[2..];
  }

  ghost predicate PredsAfter<T>(st: Algo<T>, edgeCost: Edge -> real, passable: Edge -> bool,
                                upto: nat, prev: seq<Option<nat>>)
    requires upto <= |st.available|
  {
    |prev| == |st.previous| &&
    forall w :: 0 <= w < |st.previous| ==> PredAfter(st, edgeCost, passable, w, upto, prev[w])
  }

  /** One round of `run` relaxes the node at the next odd position. */
  lemma RoundStep<T>(st: Algo<T>, edgeCost: Edge -> real, passable: Edge -> bool,
                     upto: nat, prev: seq<Option<nat>>, s2: Algo<T>, next: Algo<T>)
    requires st.Wf() && upto + 2 <= |st.available| && upto % 2 == 0
    requires PredsAfter(st, edgeCost, passable, upto, prev)
    requires s2.Wf() && s2.graph == st.graph && s2.cost == st.cost && s2.previous == prev
    requires |st.graph.values| > st.available[upto + 1]
    requires next == Relax(s2, st.available[upto + 1], edgeCost, passable)
    ensures PredsAfter(st, edgeCost, passable, upto + 2, next.previous)
  {
    forall w | 0 <= w < |st.previous|
      ensures PredAfter(st, edgeCost, passable, w, upto + 2, next.previous[w])
    {
      PredStep(st, edgeCost, passable, w, upto, prev[w], next.previous[w]);
    }
  }

  lemma PredStep<T>(st: Algo<T>, edgeCost: Edge -> real, passable: Edge -> bool,
                    w: nat, upto: nat, pw: Option<nat>, pw': Option<nat>)
    requires upto + 2 <= |st.available| && w < |st.previous| && upto % 2 == 0
    requires PredAfter(st, edgeCost, passable, w, upto, pw)
    requires pw' == if ImprovedBy(st.graph, st.cost, edgeCost, passable, st.available[upto + 1], w)
                    then Some(st.available[upto + 1]) else pw
    ensures PredAfter(st, edgeCost, passable, w, upto + 2, pw')
  {
    var v := st.available[upto + 1];
    if ImprovedBy(st.graph, st.cost, edgeCost, passable, v, w) {
      LastImprover(st, edgeCost, passable, w, upto);
    } else {
      NoNewImprover(st, edgeCost, passable, w, upto, pw);
    }
  }

  /** A node relaxed in the latest round that improves w is the last improver. */
  lemma LastImprover<T>(st: Algo<T>, edgeCost: Edge -> real, passable: Edge -> bool, w: nat, upto: nat)
    requires upto + 2 <= |st.available| && w < |st.previous| && upto % 2 == 0
    requires ImprovedBy(st.graph, st.cost, edgeCost, passable, st.available[upto + 1], w)
    ensures PredAfter(st, edgeCost, passable, w, upto + 2, Some(st.available[upto + 1]))
  {
    assert (upto + 1) % 2 == 1;
  }

  /** A round whose node does not improve w leaves w's account unchanged. */
  lemma NoNewImprover<T>(st: Algo<T>, edgeCost: Edge -> real, passable: Edge -> bool,
                         w: nat, upto: nat, pw: Option<nat>)
    requires upto + 2 <= |st.available| && w < |st.previous| && upto % 2 == 0
    requires PredAfter(st, edgeCost, passable, w, upto, pw)
    requires !ImprovedBy(st.graph, st.cost, edgeCost, passable, st.available[upto + 1], w)
    ensures PredAfter(st, edgeCost, passable, w, upto + 2, pw)
  {
    assert forall q :: upto <= q < upto + 2 && q % 2 == 1 ==> q == upto + 1;
  }

  // ---------------------------------------------------------------------
  // getPath

  /** The node reached from d after k predecessor steps, or None once the chain
      has ended. */
  function Ancestor(prev: seq<Option<nat>>, d: nat, k: nat): (r: Option<nat>)
    requires d < |prev|
    requires forall w :: 0 <= w < |prev| && prev[w].Some? ==> prev[w].value < |prev|
    ensures r.Some? ==> r.value < |prev|
  {
    if k == 0 then Some(d)
    else match Ancestor(prev, d, k - 1)
         case None => None
         case Some(x) => prev[x]
  }

  function Reverse<X>(s: seq<X>): (r: seq<X>)
    ensures |r| == |s| && forall i :: 0 <= i < |s| ==> r[i] == s[|s| - 1 - i]
  {
    if |s| == 0 then [] else Reverse(s[1..]) + [s[0]]
  }

  /** The edge `getEdge` finds between the i-th and (i+1)-th node of d's
      predecessor chain, if the chain is that long. */
  function Link<T>(st: Algo<T>, d: nat, i: nat): Option<Edge>
    requires st.Wf() && d < |st.graph.values|
  {
    match (Ancestor(st.previous, d, i), Ancestor(st.previous, d, i + 1))
    case (Some(x), Some(y)) => GetEdge(st.graph, x, y)
    case _ => None
  }

  lemma LinkStep<T>(st: Algo<T>, d: nat, i: nat, x: nat)
    requires st.Wf() && Backed(st) && d < |st.graph.values|
    requires Ancestor(st.previous, d, i) == Some(x) && st.previous[x].Some?
    ensures Ancestor(st.previous, d, i + 1) == st.previous[x]
    ensures Link(st, d, i) == GetEdge(st.graph, x, st.previous[x].value)
    ensures Link(st, d, i).Some?
  {
  }

  lemma ExtendChain<T>(st: Algo<T>, d: nat, res: seq<Edge>, e: Edge)
    requires st.Wf() && d < |st.graph.values|
    requires forall i :: 0 <= i < |res| ==> Link(st, d, i) == Some(res[i])
    requires Link(st, d, |res|) == Some(e)
    ensures forall i :: 0 <= i < |res| + 1 ==> Link(st, d, i) == Some((res + [e])[i])
  {
    forall i | 0 <= i < |res| + 1 ensures Link(st, d, i) == Some((res + [e])[i]) {
      if i < |res| {
        assert (res + [e])[i] == res[i];
      }
    }
  }

  /** The edges along d's predecessor chain, nearest first: the loop of
      `getPath` together with the edge it appends after the loop. */
  method Chain<T>(st: Algo<T>, d: nat) returns (res: seq<Edge>)
    requires st.Wf() && Backed(st) && d < |st.graph.values|
    ensures |res| == 0 <==> st.previous[d].None?
    ensures |res| <= |st.graph.edges| + 1
    ensures forall i :: 0 <= i < |res| ==> Link(st, d, i) == Some(res[i])
    ensures |res| <= |st.graph.edges| ==> Ancestor(st.previous, d, |res| + 1).None?
  {
    res := [];
    var actual: nat := d;
    while st.previous[actual].Some? && |res| < |st.graph.edges|
      invariant actual < |st.graph.values| && |res| <= |st.graph.edges|
      invariant ChainSoFar(st, d, res, actual)
      decreases |st.graph.edges| - |res|
    {
      res, actual := ChainStep(st, d, res, actual);
    }
    if st.previous[actual].Some? {
      res, actual := ChainStep(st, d, res, actual);
    }
  }

  /** The loop state of `getPath`: `res` holds the first |res| links of d's
      chain and `actual` is the node reached after them. */
  ghost predicate ChainSoFar<T>(st: Algo<T>, d: nat, res: seq<Edge>, actual: nat)
    requires st.Wf() && d < |st.graph.values|
  {
    && Ancestor(st.previous, d, |res|) == Some(actual)
    && (|res| == 0 ==> actual == d)
    && (|res| > 0 ==> st.previous[d].Some?)
    && forall i :: 0 <= i < |res| ==> Link(st, d, i) == Some(res[i])
  }

  /** One step back along the chain: append the edge to the predecessor. */
  method ChainStep<T>(st: Algo<T>, d: nat, res: seq<Edge>, actual: nat) returns (res': seq<Edge>, next: nat)
    requires st.Wf() && Backed(st) && d < |st.graph.values| && actual < |st.graph.values|
    requires ChainSoFar(st, d, res, actual) && st.previous[actual].Some?
    ensures next == st.previous[actual].value && next < |st.graph.values|
    ensures |res'| == |res| + 1 && ChainSoFar(st, d, res', next)
  {
    next := st.previous[actual].value;
    LinkStep(st, d, |res|, actual);
    var e := GetEdge(st.graph, actual, next).value;
    ExtendChain(st, d, res, e);
    res' := res + [e];
  }

  /** Reversing a list whose j-th element is what f gives at j puts that
      element j places from the end. */
  lemma ReversedLinks<X>(f: nat -> Option<X>, res: seq<X>, path: seq<X>)
    requires forall j :: 0 <= j < |res| ==> f(j) == Some(res[j])
    requires path == Reverse(res)
    ensures forall j :: 0 <= j < |path| ==> f(j) == Some(path[|path| - 1 - j])
  {
    forall j | 0 <= j < |path| ensures f(j) == Some(path[|path| - 1 - j]) {
      var i := |path| - 1 - j;
      assert path[i] == res[j];
    }
  }

  /** `getPath(d)`: a destination outside the graph has no entry in the node
      map, and reading its predecessor dereferences null. Otherwise None when d
      has no predecessor, and else the edges along the predecessor chain from
      d, reversed so that the edge at d comes last. The walk stops when the
      chain ends, or once it has as many edges as the graph, after which at
      most one more edge is added. */
  method GetPath<T>(st: Algo<T>, d: nat) returns (r: Result<Option<seq<Edge>>>)
    requires st.Wf() && Backed(st)
    ensures r.Err? <==> d >= |st.graph.values|
    ensures r.Err? ==> r.fault == NullPointer
    ensures r.Ok? ==> (r.value.None? <==> st.previous[d].None?)
    ensures r.Ok? && r.value.Some? ==> 1 <= |r.value.value| <= |st.graph.edges| + 1
    ensures r.Ok? && r.value.Some? ==>
              var path := r.value.value;
              forall j :: 0 <= j < |path| ==> Link(st, d, j) == Some(path[|path| - 1 - j])
    ensures r.Ok? && r.value.Some? && |r.value.value| <= |st.graph.edges| ==>
              Ancestor(st.previous, d, |r.value.value| + 1).None?
  {
    if d >= |st.graph.values| {
      return Err(NullPointer);
    }
    var res := Chain(st, d);
    var path := Reverse(res);
    ReversedLinks(i => Link(st, d, i), res, path);
    if |path| == 0 {
      return Ok(None);
    }
    return Ok(Some(path));
  }
}

=== FILE: util.dfy ===
/** Small shared vocabulary: optional values, the exceptions the game code can
    raise, first-match search over sequences and finite-set counting facts. */
module Util {

  datatype Option<T> = None | Some(value: T)

  /** The Java exceptions the modelled code can end in. `Diverged` stands for a
      loop that did not stop within the fuel the model allows it. */
  datatype Fault = IllegalArgument | IndexOutOfBounds | NullPointer | NumberFormat | Diverged

  datatype Result<T> = Ok(value: T) | Err(fault: Fault)

  /** Index of the first element of `s` satisfying `p`, or None. */
  function FirstIndex<T>(s: seq<T>, p: T -> bool): (r: Option<nat>)
    ensures r.Some? ==> r.value < |s| && p(s[r.value])
    ensures r.Some? ==> forall j :: 0 <= j < r.value ==> !p(s[j])
    ensures r.None? <==> forall j :: 0 <= j < |s| ==> !p(s[j])
  {
    if |s| == 0 then None
    else if p(s[0]) then Some(0)
    else match FirstIndex(s[1..], p)
         case None => None
         case Some(i) => Some(i + 1)
  }

  function Elems<T>(s: seq<T>): set<T> {
    set x | x in s
  }

  predicate NoDup<T(==)>(s: seq<T>) {
    forall i, j :: 0 <= i < j < |s| ==> s[i] != s[j]
  }

  lemma NoDupTail<T>(s: seq<T>)
    requires NoDup(s) && |s| > 0
    ensures NoDup(s[1..])
  {
    forall i, j | 0 <= i < j < |s| - 1 ensures s[1..][i] != s[1..][j] {
      assert s[1..][i] == s[i + 1] && s[1..][j] == s[j + 1];
    }
  }

  /** The set {0, ..., n-1}. */
  function Below(n: nat): (r: set<nat>)
    ensures forall i: nat :: i in r <==> i < n
  {
    var s := Range(n);
    var r := set x | x in s;
    assert forall i: nat :: i < n ==> i in r by {
      forall i: nat | i < n ensures i in r { assert s[i] == i; }
    }
    assert forall i: nat :: i in r ==> i < n by {
      forall i: nat | i in r ensures i < n {
        var k :| 0 <= k < |s| && s[k] == i;
      }
    }
    r
  }

  /** The list 0, 1, ..., n-1. */
  function Range(n: nat): (r: seq<nat>)
    ensures |r| == n && forall i :: 0 <= i < n ==> r[i] == i
  {
    seq(n, i => i)
  }

  lemma {:induction false} BelowSize(n: nat)
    ensures |Below(n)| == n
  {
    if n > 0 {
      BelowSize(n - 1);
      assert Below(n) == Below(n - 1) + {n - 1};
    } else {
      assert Below(0) == {};
    }
  }

  /** A duplicate-free sequence has as many distinct elements as entries. */
  lemma {:induction false} NoDupCard<T>(s: seq<T>)
    requires NoDup(s)
    ensures |Elems(s)| == |s|
  {
    if |s| > 0 {
      var t := s[..|s| - 1];
      assert NoDup(t);
      NoDupCard(t);
      assert Elems(s) == Elems(t) + {s[|s| - 1]};
      assert s[|s| - 1] !in Elems(t);
    } else {
      assert Elems(s) == {};
    }
  }

  /** A duplicate-free list of indices below n has at most n entries, and
      exactly n only when it lists every index below n. */
  lemma NoDupBelow(s: seq<nat>, n: nat)
    requires NoDup(s) && forall x :: x in s ==> x < n
    ensures |s| <= n
    ensures |s| == n <==> Elems(s) == Below(n)
  {
    NoDupCard(s);
    BelowSize(n);
    assert Elems(s) <= Below(n);
    SubsetCard(Elems(s), Below(n));
    if |s| == n && Elems(s) != Below(n) {
      SubsetSmaller(Elems(s), Below(n));
    }
  }

  lemma SubsetSmaller<T>(a: set<T>, b: set<T>)
    requires a < b
    ensures |a| < |b|
  {
    var x :| x in b && x !in a;
    SubsetCard(a, b - {x});
  }

  lemma {:induction false} SubsetCard<T>(a: set<T>, b: set<T>)
    requires a <= b
    ensures |a| <= |b|
  {
    if a != {} {
      var x :| x in a;
      SubsetCard(a - {x}, b - {x});
    }
  }
}
